=== FILE: README.md ===
# LiveView control logic in Dafny

A model of the control and data logic of LiveView. LiveView is an iOS library
that assembles a Live Photo from a JPEG and a QuickTime movie, shows it in a view
and saves it to the photo library. Apple's frameworks (ImageIO, AVFoundation,
Photos, UIKit, the file manager) become inputs: each call's outcome is a
parameter of the function that makes the call.

Modules, one per source file:

- `LiveResources` models the orchestrator `LiveResource`:
  - it holds at most one `LiveAsset`: two files in one temporary directory, with
    fixed names and one shared identifier;
  - `flush` drops the asset; when the temporary directory resolves and lists,
    it removes every entry whose removal succeeds;
  - `save` hands the pair to the library;
  - `requestWith` runs flush, validate image, validate movie, resolve the
    temporary directory, create the asset, inject the JPEG metadata, inject the
    movie metadata, and then asks for assembly.
- `LiveConvertible` models `conformsTo`. The verdict depends only on the
  extension of the resolved path, through a partial extension→type map and a
  conformance relation.
- `JPGAppleMetadata` models the three ordered guards of `injectToFile` and the
  update of the property dictionary. The maker-note and Exif entries are
  replaced, and every other entry is kept.
- `LKErrors` models the seven error cases, their messages and the
  `LocalizedError` view of them. The messages come with a decoder: decoding an
  error's message gives the error back whenever no path contains a line break,
  the path list is not the single empty path `[""]`, and the expected type
  contains no double quote. Outside these conditions two different errors can
  print the same message: `[""]` prints like the empty list.
- `LiveViews` models the view:
  - its three-state status machine, driven by the three `show` calls;
  - the status gate and branches of `saveToLibrary`;
  - the blur decision.
- `Paths`, `Strings`, `PhotoLibrary` and `Wrappers` are the vocabulary the
  others share:
  - `Paths`: how Foundation splits a path into directory, last component and
    extension;
  - `Strings`: joining and splitting lines;
  - `PhotoLibrary`: library changes;
  - `Wrappers`: `Option`, `Result` and `Outcome`.

Effects are modelled as values:

- A thrown Swift error is the `Failure` of a `Result`.
- Each call of a completion handler is one element of a `reports` or `callbacks`
  sequence.
- Reaching `fatalError` is a `crashed` flag.
- The library's work is a list of `LibraryChange`s.
- The temporary directory is a set of entry names, together with the names
  whose removal fails.

`requestWith` is modelled as written: its `catch` block does not `return` (see
Findings). `LiveResources.RequestWithReturning` is the corrected request, and
the view's `LiveViews.ShowLive` is built on it. `LiveViews.ShowLiveAsWritten`
keeps the as-written path, so the consequences of the finding can be stated.

## Model

| member | source | states |
|---|---|---|
| LiveResources.NewLiveAsset | LiveView/LiveResource.swift:124-131 | both files carry the asset's identifier, both sit in the given directory under the fixed file names, and the two paths differ |
| LiveResources.NewAssetPaths | LiveView/LiveResource.swift:127-130 | the image path is `dir + "/live_resource.jpg"` and the movie path is `dir + "/live_resource.mov"` |
| LiveResources.NewAssetExtensions | LiveView/LiveResource.swift:31-32 | the two file names carry the extensions `jpg` and `mov` |
| LiveResources.Flush | LiveView/LiveResource.swift:83-95 | no asset is held afterwards, whatever happens; when the directory resolves and lists, exactly the entries whose removal fails remain; otherwise the directory is untouched |
| LiveResources.FlushEmptiesHealthyStore | LiveView/LiveResource.swift:88-94 | flushing a directory that resolves, lists and allows every removal leaves it empty |
| LiveResources.FlushIdempotent | LiveView/LiveResource.swift:83-95 | flushing twice is flushing once |
| LiveResources.Save | LiveView/LiveResource.swift:97-109 | with no asset, no change and no completion call; with one, the image is added as the photo and the movie as the paired video, from two distinct paths in one directory, and the library's outcome is reported once |
| LiveResources.RunDoBlock | LiveView/LiveResource.swift:47-58 | an image validation error stops the block at step one, a movie validation error at step two, an unresolved directory at step three, each with that error and nothing written; past them the asset is built from the directory and the injections run; an asset exists only from step four on |
| LiveResources.InjectFiles | LiveView/LiveResource.swift:54-55 | once the asset exists, a JPEG injection error stops the block at step five with nothing written; otherwise all six steps run, the movie injection's error, if any, is thrown, the JPEG is on disk exactly when its destination finalised, and the movie exactly when the movie injector left it |
| LiveResources.DoBlockStopsAtJpg | LiveView/LiveResource.swift:48-54 | with both resources valid and the directory resolved, a JPEG injection error ends the block after the asset was created |
| LiveResources.DoBlockCompletes | LiveView/LiveResource.swift:48-55 | after a successful JPEG injection the block runs all six steps and throws exactly what the movie injection throws |
| LiveResources.FallThroughWithoutAsset | LiveView/LiveResource.swift:56-62 | when the block stopped before the asset existed, its error is the only callback and `fatalError` follows |
| LiveResources.FallThroughWithAsset | LiveView/LiveResource.swift:56-80 | when the asset exists, any error of the block is reported first, then the assembly results for the asset's two paths, and nothing crashes |
| LiveResources.PipelineSuccessCreatesAsset | LiveView/LiveResource.swift:52-62 | a `do` block that throws nothing never reaches `fatalError` |
| LiveResources.CallbacksEndWithAssembly | LiveView/LiveResource.swift:64-80 | a request that did not crash ends with the assembly results, whatever it reported first |
| LiveResources.FixedNamesArePlain | LiveView/LiveResource.swift:31-32 | the two fixed file names differ and contain no `/` |
| LiveResources.StepsThrough | LiveView/LiveResource.swift:45-55 | the steps taken up to a point are a prefix of the fixed order, and asset creation is among them exactly from the fourth `do` step on |
| LiveResources.AssemblyCallbacks | LiveView/LiveResource.swift:64-74 | each live photo is delivered; each empty result becomes `liveRequestProblemOccurred` naming the image path, then the movie path |
| LiveResources.FallThrough | LiveView/LiveResource.swift:56-80 | after the `catch`, `fatalError` is reached exactly when no asset exists; otherwise assembly is requested for the asset's two paths |
| LiveResources.RequestWith | LiveView/LiveResource.swift:41-81 | starts with the flush, follows the fixed step order, crashes exactly when asset creation was not reached, holds a well-formed asset otherwise, and leaves at most the two temporary files in a healthy directory |
| LiveResources.ImageValidationFailureCrashes | LiveView/LiveResource.swift:48-62 | an image that fails validation: the error is reported, then `fatalError` |
| LiveResources.MovieValidationFailureCrashes | LiveView/LiveResource.swift:49-62 | a movie that fails validation: the error is reported, then `fatalError` |
| LiveResources.TemporaryPathFailureCrashes | LiveView/LiveResource.swift:50-62 | an unresolvable temporary directory: the error is reported, then `fatalError` |
| LiveResources.JpgInjectionFailureStillAssembles | LiveView/LiveResource.swift:54-80 | a JPEG injection error is reported, and the assembly is still requested for the two paths and its results relayed |
| LiveResources.JpgInjectionFailureWritesNothing | LiveView/LiveResource.swift:54-64 | after a JPEG injection error the directory holds only what the flush left, so the assembly is asked about files that were never written |
| LiveResources.MovInjectionFailureStillAssembles | LiveView/LiveResource.swift:55-80 | a movie injection error is reported, and the assembly is still requested |
| LiveResources.SuccessfulRequest | LiveView/LiveResource.swift:41-81 | when every step succeeds, all seven steps and the assembly run, the new asset is held, and only assembly results reach the caller, naming `dir/live_resource.jpg` then `dir/live_resource.mov` in the problem error |
| LiveResources.Returning | LiveView/LiveResource.swift:56-58 | with a `return` in the `catch`, a thrown error is the only callback and nothing follows |
| LiveResources.RequestWithReturning | LiveView/LiveResource.swift:41-81 | the corrected request never crashes; it either reports one error and stops, or runs every step and assembles the asset's two paths |
| LiveResources.ReturningAgreesWithoutFailure | LiveView/LiveResource.swift:47-58 | when the `do` block throws nothing, the corrected request and the request as written are identical |
| LiveResources.ReturningReportsFailureOnce | LiveView/LiveResource.swift:56-58 | with the `return`, a thrown error produces exactly one callback, no assembly and no crash |
| LiveResources.FlushAfterRequestEmpties | LiveView/LiveResource.swift:83-95 | after any request, a flush empties a directory that resolves, lists, has no entry that cannot be removed, and lets both fixed file names be removed, so no request sees an earlier request's files |
| LiveResources.SaveAfterRequest | LiveView/LiveResource.swift:97-105 | saving after a request that created an asset adds the two fixed temporary files as photo and paired video |
| LiveConvertible.PathError | LiveView/LiveConvertible+Private.swift:27-29 | `pathError` is the invalid-path error naming the receiver, and its message reads back as that error |
| LiveConvertible.ConformsTo | LiveView/LiveConvertible+Private.swift:41-51 | a failing `asPath()` propagates unchanged; success exactly when the extension maps to a type conforming to the expected one; success returns the receiver itself; any other failure is `invalidFileType(receiver, expected)` |
| LiveConvertible.ValidateAsJpg | LiveView/LiveConvertible+Private.swift:33-35 | conformance to `public.jpeg`, with that identifier in the error |
| LiveConvertible.ValidateAsMov | LiveView/LiveConvertible+Private.swift:37-39 | conformance to `com.apple.quicktime-movie`, with that identifier in the error |
| LiveConvertible.SameExtensionSameVerdict | LiveView/LiveConvertible+Private.swift:43-46 | two resolved paths with the same extension get the same verdict, and a failure names its own receiver |
| LiveConvertible.FileNameDecidesValidation | LiveView/LiveConvertible+Private.swift:41-51 | a resource resolving to `dir/stem.ext`, with a non-empty stem and neither part containing `/` and `ext` containing no `.`, validates exactly when `ext` maps to a conforming type |
| Paths.ExtensionIsSuffix | LiveView/LiveConvertible+Private.swift:43 | the extension never contains a `.` or `/`; a non-empty extension ends the path, right after a `.` |
| Paths.DirectoryAndComponentRebuildPath | LiveView/LiveResource.swift:127-130 | a path with a `/` is its directory, a `/` and its last component |
| Paths.JoinedPathParts | LiveView/LiveResource.swift:127-130 | for a `name` without `/`, `dir + "/" + name` has directory `dir` and last component `name` |
| Paths.ExtensionOfFileName | LiveView/LiveConvertible+Private.swift:43 | the extension of `dir/stem.ext` is `ext` when the stem is non-empty, neither part contains `/` and `ext` contains no `.` (`dir/.jpg` has no extension) |
| Strings.SplitJoinRoundTrip | LiveView/LKError.swift:40 | splitting the newline-joined paths gives the paths back when the list is non-empty and no path contains a line break (`[]` joins to `""`, which splits to `[""]`) |
| Strings.JoinSplitRoundTrip | LiveView/LKError.swift:40 | joining the split lines of any text gives the text back |
| LKErrors.DecodeDescription | LiveView/LKError.swift:35-52 | the message of every decodable error decodes back to that error, across all seven cases and their fixed headers |
| LKErrors.DecodeFilePaths | LiveView/LKError.swift:39-40 | the joined path list of a live-request problem reads back as that list when no path contains a line break and the list is not `[""]` (which reads back as `[]`) |
| LKErrors.DecodeInvalidFileType | LiveView/LKError.swift:45-46 | the type-error message, with the expected type in double quotes before the path, reads back as that error when the expected type contains no double quote |
| LKErrors.DescriptionsDistinguishErrors | LiveView/LKError.swift:35-52 | two decodable errors with the same message are equal |
| LKErrors.LocalizedDescription | LiveView/LKError.swift:35-52 | each message starts with its case's fixed header; a file error's message ends with its path; the type error quotes the expected type right after its header; a live-request message continues with the paths joined by line breaks, and an empty list gives the header alone |
| LKErrors.DecodedLiveRequestDescribesItself | LiveView/LKError.swift:39-40 | any text after the live-request header reads back as a decodable live-request problem whose message is that text |
| LKErrors.ErrorDescription | LiveView/LKError.swift:56-58 | `errorDescription` is always present: the bracketed kit name, a space, then the message |
| LKErrors.AsLocalizedError | LiveView/LKError.swift:55-70 | `failureReason`, `recoverySuggestion` and `helpAnchor` are nil for every case |
| LKErrors.ErrorDescriptionDecodes | LiveView/LKError.swift:55-58 | past the kit prefix, `errorDescription` reads back as the error for every decodable error (no line break in a path, not the path list `[""]`, no double quote in the expected type) |
| JPGAppleMetadata.TagMetadata | LiveView/Helpers/JPGAppleMetadata.swift:48-52 | the maker-note entry becomes exactly `{"17": identifier}` and the Exif entry exactly `{ExifVersion: [2, 2, 1]}`; every other key keeps its value, and no key is lost or added besides those two |
| JPGAppleMetadata.RetagOverrides | LiveView/Helpers/JPGAppleMetadata.swift:48-52 | tagging again overrides the earlier tag; tagging twice with one identifier is tagging once |
| JPGAppleMetadata.InjectToFile | LiveView/Helpers/JPGAppleMetadata.swift:31-56 | an unreadable source fails with `invalidFilePath(source)`; then an uncreatable destination fails with `invalidFilePath(destination)`; then unparsable metadata fails with `invalidFileMetadata(source)`; otherwise the copy handed to the destination holds the source image and exactly the tagged dictionary: maker note `{"17": identifier}`, Exif `{ExifVersion: [2, 2, 1]}`, every other source entry kept; the call succeeds whether or not finalising writes the file, and the result records which |
| JPGAppleMetadata.InjectingTaggedSourceKeepsMetadata | LiveView/Helpers/JPGAppleMetadata.swift:48-54 | injecting from a source already tagged with the same identifier succeeds and leaves its property dictionary as it was |
| LiveViews.NewLiveView | LiveView/LiveView.swift:47 | a new view waits for a resource, shows nothing and holds no asset |
| LiveViews.BlurEffect | LiveView/LiveView.swift:180-186 | an effect is installed exactly when a blur style is configured and blur is enabled, and it is that style |
| LiveViews.SetBlurEnabled | LiveView/LiveView.swift:179-193 | the installed effect is `BlurEffect` of the configured style (present exactly when a style is set and blur is enabled, and then that style); the blur view ends hidden exactly when the transition is animated and blur is disabled; nothing else changes |
| LiveViews.Update | LiveView/LiveView.swift:156-167 | the image and live photo are replaced and the blur effect becomes the configured style exactly when blur is enabled, leaving status, settings and resource alone |
| LiveViews.ShowPlaceholder | LiveView/LiveView.swift:80-89 | a conversion error leaves the view unchanged and is reported; success shows the image under the configured blur style, if any, waits for a resource and reports nil; settings and the live resource are never touched |
| LiveViews.ShowImage | LiveView/LiveView.swift:91-101 | a conversion error leaves the view unchanged and is reported; success shows the image without blur, shows a resource and reports nil; settings and the live resource are never touched |
| LiveViews.ApplyCallbacks | LiveView/LiveView.swift:107-117 | each error restores the earlier status and is reported; each live photo reports nil; the last callback decides the status, and a last live photo is the one shown, with no image and no blur effect |
| LiveViews.ShowLiveWith | LiveView/LiveView.swift:103-118 | the status is `preparingToShow` until the request answers, then the earlier status after an error or `showingResource` after a live photo; a last live photo is the one shown, with no image and no blur effect; settings are kept and the resource is the request's |
| LiveViews.ShowLiveAsWritten | LiveView/LiveView.swift:103-118 | over the request as written, the view crashes exactly when the request holds no asset |
| LiveViews.ShowLive | LiveView/LiveView.swift:103-118 | over the corrected request, it never crashes, and a pipeline error is reported once and leaves the view as it was |
| LiveViews.SaveToLibrary | LiveView/LiveView.swift:120-137 | refused with `nothingToSave` unless a resource is shown; a shown live photo is saved through the resource; a shown image is created as an asset; otherwise `nothingToSave` |
| LiveViews.NewViewHasNothingToSave | LiveView/LiveView.swift:120-124 | saving from a new view is refused |
| LiveViews.PlaceholderIsNotSaved | LiveView/LiveView.swift:84-86 | saving right after a placeholder is shown is refused |
| LiveViews.ShownImageIsSaved | LiveView/LiveView.swift:128-133 | saving right after an image is shown creates exactly that image |
| LiveViews.SuccessfulPipelineEndsWithAssembly | LiveView/LiveResource.swift:64-80 | when the pipeline succeeds, the request holds an asset and its last callback relays the last assembly result |
| LiveViews.ShownLivePhotoIsSaved | LiveView/LiveView.swift:126-127 | saving right after a live photo is delivered adds the two temporary files as photo and paired video |
| LiveViews.NewViewIsUnblurred | LiveView/LiveView.swift:141-149 | a new view is not showing a resource, so no shown resource is blurred |
| LiveViews.ShowPlaceholderKeepsUnblurred | LiveView/LiveView.swift:80-89 | the placeholder `show` never leaves a shown resource blurred |
| LiveViews.ShowImageKeepsUnblurred | LiveView/LiveView.swift:91-101 | the image `show` never leaves a shown resource blurred |
| LiveViews.ApplyCallbacksKeepsUnblurred | LiveView/LiveView.swift:107-117 | no sequence of request answers leaves a shown resource blurred |
| LiveViews.ShowLiveWithKeepsUnblurred | LiveView/LiveView.swift:103-118 | whatever the request does, the live `show` never leaves a shown resource blurred |
| LiveViews.InjectionErrorThenShown | LiveView/LiveView.swift:107-117 | as written, a JPEG injection error is reported and a live photo assembled afterwards is still shown |
| LiveViews.InjectionErrorRestoresStatus | LiveView/LiveView.swift:107-110 | with the corrected request, that error is the only report, and the view keeps its status, image and live photo |

## Left out

- `MOVAppleMetadata` is not part of this model. It is asset reader/writer plumbing on a dispatch queue with a busy-wait. Its effect is an input: whether it throws (and with what), and whether it left the movie file behind.
- Inside ImageIO, decoding, `CGImageDestinationAddImageFromSource` and `CGImageDestinationFinalize` are not modelled. The model keeps which paths read, which destinations open, which data parses to a property dictionary, and which destinations finalise to a file. The output carries the source bytes unchanged, standing for the image passed through.
- JPGAppleMetadata.InjectToFile: the destination error names the asset's path as given, not `URL(fileURLWithPath:).path`. The two differ only when the path is not already normalised.
- Paths.ExtensionIsSuffix: `PathExtension` approximates `URL.pathExtension` as the text after the last `.` of the last `/`-component, empty for a leading dot. Trailing slashes, `..` components and other URL normalisation are not modelled.
- The temporary directory's location is one input, shared by the flush and the request. Creating the directory, the documents-directory lookup and `LiveKit.bundlify` are not modelled.
- The UUID is the `identifier` input. `LiveKit.name` is the `kitName` parameter of `ErrorDescription`.
- `PHLivePhoto.request` is the sequence of results its handler receives. The target size and content mode are not modelled.
- `PHPhotoLibrary.performChanges` is the list of changes requested, plus the outcome reported back.
- UIKit and Core Animation are left out: layout, content mode, `CATransaction`, transition timing, `Settings.duration` and frame sizes. Each transition and its completion block are treated as one atomic step.
- The optional completion handlers (`completionHandler` of the three `show` calls, of `saveToLibrary` and of `LiveResource.save`) are taken as present: the model always records what they receive. A nil handler receives nothing, which the model does not distinguish.
- Concurrency is left out: the completion handlers run in the order the platform produces them, with no interleaving with other calls.
- LKErrors.DecodeDescription: stated only for errors where no path contains a line break, the path list is not the single empty path `[""]`, and the expected type has no double quote. For other errors two different errors can print the same message (`[""]` prints like `[]`), so no decoder can exist.
- LiveViews.SetBlurEnabled: the blur view ends hidden iff blur is disabled only for animated transitions. A non-animated transition never runs the completion that hides it, so it stays visible, with no effect installed.

## Findings

| source | as written | input that shows it | evidently intended | confidence | as-written member | corrected member |
|---|---|---|---|---|---|---|
| LiveView/LiveResource.swift:56-62 | the `catch` block reports the error and falls through to `guard let asset`, which calls `fatalError` when the failure came before the asset was created | an image resource whose path is `/tmp/photo.png`: it fails JPEG validation, the completion gets `invalidFileType`, then the process stops | the `catch` block ends with `return`, so the caller only hears the error | high, not executed | LiveResources.ImageValidationFailureCrashes | LiveResources.ReturningReportsFailureOnce |
| LiveView/LiveResource.swift:54-80 | after a metadata injection error the asset is already set, so the code reports the error and still requests assembly of files that were not written; the view then shows any live photo it gets after showing the error | a JPEG source path that cannot be read: the caller hears `invalidFilePath` and then every assembly result, so an assembly answer of nil becomes a second error callback (`JpgInjectionFailureStillAssembles` with `p.assembly == [None]`); the view ends up `showingResource` when the assembly service still answers with a live photo, which needs files the flush could not remove, since the failed injection writes nothing | the request stops at the first error, and the view returns to its earlier status | high, not executed | LiveViews.InjectionErrorThenShown | LiveViews.InjectionErrorRestoresStatus |

=== FILE: jpg_apple_metadata.dfy ===
/** Still-image metadata injection: the copy of a JPEG whose property
    dictionary carries the pairing identifier in its Apple maker note and a
    fixed Exif version.

    ImageIO is represented by what the injector learns from it: which source
    paths can be read, which destinations can be opened for writing, and which
    data decodes to an image source with a property dictionary. */
module JPGAppleMetadata {
  import opened Wrappers
  import opened Paths
  import opened LKErrors

  type Bytes = seq<bv8>

  /** A value in an image property dictionary. */
  datatype PropertyValue =
    | Text(text: string)
    | Numbers(numbers: seq<int>)
    | Dictionary(entries: map<string, PropertyValue>)
    | Opaque(description: string)

  /** The top-level property dictionary of an image. */
  type Metadata = map<string, PropertyValue>

  /** `kCGImagePropertyMakerAppleDictionary`. */
  const MakerAppleKey: string := "{MakerApple}"
  /** `kCGImagePropertyExifDictionary`. */
  const ExifKey: string := "{Exif}"
  /** `kCGImagePropertyExifVersion`. */
  const ExifVersionKey: string := "ExifVersion"
  /** The maker-note entry that holds the pairing identifier. */
  const AppleMarkerNoteKey: string := "17"
  const ExifVersionValue: seq<int> := [2, 2, 1]

  /** What the injector can learn from the file system and ImageIO,
      including the destinations whose finalisation actually writes a file. */
  datatype ImageIO = ImageIO(
    files: map<Path, Bytes>,
    creatableDestinations: set<Path>,
    sources: map<Bytes, Option<Metadata>>,
    finalizable: set<Path>)

  /** The JPEG handed to the destination at `path`: the source's image,
      stored as it was, with the given property dictionary; `finalized` says
      whether finalising the destination left that file on disk. */
  datatype JpgOutput = JpgOutput(path: Path, image: Bytes, metadata: Metadata, finalized: bool)

  /** The identifier a reader finds in the maker note of a property
      dictionary, if any. */
  function MarkerIdentifier(metadata: Metadata): Option<string>
  {
    if MakerAppleKey in metadata
       && metadata[MakerAppleKey].Dictionary?
       && AppleMarkerNoteKey in metadata[MakerAppleKey].entries
       && metadata[MakerAppleKey].entries[AppleMarkerNoteKey].Text?
    then Some(metadata[MakerAppleKey].entries[AppleMarkerNoteKey].text)
    else None
  }

  /** The source's property dictionary with its maker note replaced by one
      holding only the identifier and its Exif dictionary replaced by one
      holding only the Exif version; every other entry is kept. */
  function TagMetadata(metadata: Metadata, identifier: string): (r: Metadata)
    ensures r.Keys == metadata.Keys + {MakerAppleKey, ExifKey}
    ensures MarkerIdentifier(r) == Some(identifier)
    ensures r[MakerAppleKey].entries.Keys == {AppleMarkerNoteKey}
    ensures r[ExifKey] == Dictionary(map[ExifVersionKey := Numbers(ExifVersionValue)])
    ensures forall k | k in metadata && k != MakerAppleKey && k != ExifKey :: r[k] == metadata[k]
  {
    metadata[MakerAppleKey := Dictionary(map[AppleMarkerNoteKey := Text(identifier)])]
            [ExifKey := Dictionary(map[ExifVersionKey := Numbers(ExifVersionValue)])]
  }

  /** Tagging again overrides the earlier tag and nothing else; tagging twice
      with the same identifier is tagging once. */
  lemma RetagOverrides(metadata: Metadata, first: string, second: string)
    ensures TagMetadata(TagMetadata(metadata, first), second) == TagMetadata(metadata, second)
    ensures TagMetadata(TagMetadata(metadata, first), first) == TagMetadata(metadata, first)
  {
  }

  predicate SourceReadable(io: ImageIO, sourcePath: Path)
  {
    sourcePath in io.files
  }

  predicate SourceParsable(io: ImageIO, sourcePath: Path)
    requires SourceReadable(io, sourcePath)
  {
    io.files[sourcePath] in io.sources && io.sources[io.files[sourcePath]].Some?
  }

  /** `injectToFile(at:output:)`: the three guards in order (readable source,
      creatable destination, parsable source metadata), then the tagged copy.
      The results of adding the image and finalising the destination are
      not inspected, so nothing fails once the guards pass, even when no
      file is written. */
  function InjectToFile(sourcePath: Path, output: FileAsset, io: ImageIO): (r: Result<JpgOutput, LKError>)
    ensures r.Success? <==>
      SourceReadable(io, sourcePath) && output.path in io.creatableDestinations
      && SourceParsable(io, sourcePath)
    ensures !SourceReadable(io, sourcePath) ==> r == Failure(InvalidFilePath(sourcePath))
    ensures SourceReadable(io, sourcePath) && output.path !in io.creatableDestinations ==>
      r == Failure(InvalidFilePath(output.path))
    ensures (SourceReadable(io, sourcePath) && output.path in io.creatableDestinations
             && !SourceParsable(io, sourcePath)) ==> r == Failure(InvalidFileMetadata(sourcePath))
    ensures r.Success? ==>
      var source := io.sources[io.files[sourcePath]].value;
      && r.value.path == output.path
      && r.value.image == io.files[sourcePath]
      && r.value.metadata == TagMetadata(source, output.identifier)
      && MarkerIdentifier(r.value.metadata) == Some(output.identifier)
      && (r.value.finalized <==> output.path in io.finalizable)
  {
    if sourcePath !in io.files then Failure(InvalidFilePath(sourcePath))
    else if output.path !in io.creatableDestinations then Failure(InvalidFilePath(output.path))
    else
      var data := io.files[sourcePath];
      if data !in io.sources || io.sources[data].None? then Failure(InvalidFileMetadata(sourcePath))
      else Success(JpgOutput(output.path, data, TagMetadata(io.sources[data].value, output.identifier),
                          output.path in io.finalizable))
  }

  /** Injecting a copy whose source already carries the tag for the same
      identifier changes nothing in its property dictionary. */
  lemma InjectingTaggedSourceKeepsMetadata(sourcePath: Path, output: FileAsset, io: ImageIO, earlier: Metadata)
    requires SourceReadable(io, sourcePath) && output.path in io.creatableDestinations
    requires io.files[sourcePath] in io.sources
    requires io.sources[io.files[sourcePath]] == Some(TagMetadata(earlier, output.identifier))
    ensures InjectToFile(sourcePath, output, io).Success?
    ensures InjectToFile(sourcePath, output, io).value.metadata == TagMetadata(earlier, output.identifier)
  {
    RetagOverrides(earlier, output.identifier, output.identifier);
  }
}

=== FILE: live_convertible.dfy ===
/** Validation of a path-convertible resource against an expected Uniform Type
    Identifier, using only the extension of the path it resolves to. */
module LiveConvertible {
  import opened Wrappers
  import opened Paths
  import opened LKErrors

  /** A `PathConvertible` value: the text it prints as, and the outcome of
      its `asPath()` conversion (which the conforming type supplies). */
  datatype PathResource = PathResource(rendering: string, asPath: Result<Path, Error>)

  /** The part of the platform's type database that validation consults: the
      preferred type identifier for a file-name extension, when there is one,
      and the conformance relation between type identifiers. */
  datatype TypeDatabase = TypeDatabase(
    preferredForExtension: map<string, string>,
    conformance: set<(string, string)>)

  const JpegType: string := "public.jpeg"
  const QuickTimeMovieType: string := "com.apple.quicktime-movie"

  /** The extension maps to a type that conforms to `expected`. */
  predicate ExtensionConforms(db: TypeDatabase, ext: string, expected: string)
  {
    ext in db.preferredForExtension
    && (db.preferredForExtension[ext], expected) in db.conformance
  }

  /** `pathError`: the invalid-path error naming the receiver. */
  function PathError(resource: PathResource): (e: LKError)
    ensures Decode(LocalizedDescription(e)) == Some(InvalidFilePath(resource.rendering))
  {
    var e := InvalidFilePath(resource.rendering);
    DecodeDescription(e);
    e
  }

  /** `conformsTo(typeIdentifier:)`: the receiver itself when its extension
      maps to a type conforming to `expected`; otherwise the conversion error,
      or an invalid-type error naming the receiver and the expected type. */
  function ConformsTo(resource: PathResource, expected: string, db: TypeDatabase)
    : (r: Result<PathResource, Error>)
    ensures resource.asPath.Failure? ==> r == Failure(resource.asPath.error)
    ensures r.Success? <==>
      resource.asPath.Success? && ExtensionConforms(db, PathExtension(resource.asPath.value), expected)
    ensures r.Success? ==> r.value == resource
    ensures resource.asPath.Success? && r.Failure? ==>
      r.error == Kit(InvalidFileType(resource.rendering, expected))
  {
    match resource.asPath
    case Failure(err) => Failure(err)
    case Success(path) =>
      if ExtensionConforms(db, PathExtension(path), expected) then Success(resource)
      else Failure(Kit(InvalidFileType(resource.rendering, expected)))
  }

  /** `validateAsJPG()`: conformance to the JPEG type. */
  function ValidateAsJpg(resource: PathResource, db: TypeDatabase): (r: Result<PathResource, Error>)
    ensures r.Success? <==>
      resource.asPath.Success? && ExtensionConforms(db, PathExtension(resource.asPath.value), JpegType)
    ensures r.Success? ==> r.value == resource
    ensures resource.asPath.Success? && r.Failure? ==>
      r.error == Kit(InvalidFileType(resource.rendering, "public.jpeg"))
  {
    ConformsTo(resource, JpegType, db)
  }

  /** `validateAsMOV()`: conformance to the QuickTime movie type. */
  function ValidateAsMov(resource: PathResource, db: TypeDatabase): (r: Result<PathResource, Error>)
    ensures r.Success? <==>
      resource.asPath.Success? && ExtensionConforms(db, PathExtension(resource.asPath.value), QuickTimeMovieType)
    ensures r.Success? ==> r.value == resource
    ensures resource.asPath.Success? && r.Failure? ==>
      r.error == Kit(InvalidFileType(resource.rendering, "com.apple.quicktime-movie"))
  {
    ConformsTo(resource, QuickTimeMovieType, db)
  }

  /** Once both resources resolve, only their extensions matter: equal
      extensions give the same verdict, and a failure names its own receiver. */
  lemma SameExtensionSameVerdict(a: PathResource, b: PathResource, expected: string, db: TypeDatabase)
    requires a.asPath.Success? && b.asPath.Success?
    requires PathExtension(a.asPath.value) == PathExtension(b.asPath.value)
    ensures ConformsTo(a, expected, db).Success? <==> ConformsTo(b, expected, db).Success?
    ensures ConformsTo(a, expected, db).Failure? ==>
      ConformsTo(b, expected, db) == Failure(Kit(InvalidFileType(b.rendering, expected)))
  {
  }

  /** A file named `<stem>.<ext>` validates exactly when `ext` maps to a type
      conforming to the expected one; e.g. `photo.jpg` passes and `photo.png`
      fails JPEG validation in a database where only `jpg` maps to a type
      conforming to `public.jpeg`. */
  lemma {:induction false} FileNameDecidesValidation(
    resource: PathResource, dir: Path, stem: string, ext: string, expected: string, db: TypeDatabase)
    requires resource.asPath == Success(dir + "/" + (stem + "." + ext))
    requires '/' !in stem && '/' !in ext && '.' !in ext && |stem| > 0
    ensures ExtensionConforms(db, ext, expected) ==> ConformsTo(resource, expected, db) == Success(resource)
    ensures !ExtensionConforms(db, ext, expected) ==>
      ConformsTo(resource, expected, db) == Failure(Kit(InvalidFileType(resource.rendering, expected)))
  {
    ExtensionOfFileName(dir, stem, ext);
  }
}

=== FILE: live_resource.dfy ===
/** The live-resource orchestrator: it validates the two inputs, writes their
    tagged copies into its temporary directory, asks the platform to assemble a
    live photo from them, and keeps the last pair of files for saving.

    Every platform call is an input: the type database, the fresh identifier,
    ImageIO, the movie injector's outcome, the temporary directory, and the
    successive results the assembly service hands to its result handler. */
module LiveResources {
  import opened Wrappers
  import opened Paths
  import opened LKErrors
  import opened LiveConvertible
  import opened PhotoLibrary
  import JPGAppleMetadata

  const TemporaryImageFileName: string := "live_resource.jpg"
  const TemporaryMovieFileName: string := "live_resource.mov"

  /** The pair of files one request writes, sharing one identifier. */
  datatype LiveAsset = LiveAsset(imageFile: FileAsset, movieFile: FileAsset, identifier: string)

  /** The invariant every held asset satisfies: one identifier on both files,
      both files in one directory under the fixed names. */
  predicate WellFormedAsset(a: LiveAsset)
  {
    && a.imageFile.identifier == a.identifier
    && a.movieFile.identifier == a.identifier
    && DirectoryOf(a.imageFile.path) == DirectoryOf(a.movieFile.path)
    && LastComponent(a.imageFile.path) == TemporaryImageFileName
    && LastComponent(a.movieFile.path) == TemporaryMovieFileName
  }

  /** `LiveAsset.init(path:)` with the generated identifier passed in. */
  function NewLiveAsset(dir: Path, identifier: string): (a: LiveAsset)
    ensures WellFormedAsset(a)
    ensures a.identifier == identifier
    ensures DirectoryOf(a.imageFile.path) == dir
    ensures a.imageFile.path != a.movieFile.path
  {
    FixedNamesArePlain();
    JoinedPathParts(dir, TemporaryImageFileName);
    JoinedPathParts(dir, TemporaryMovieFileName);
    LiveAsset(
      FileAsset(identifier, dir + "/" + TemporaryImageFileName),
      FileAsset(identifier, dir + "/" + TemporaryMovieFileName),
      identifier)
  }

  /** The fixed file names differ and hold no `/`. */
  lemma FixedNamesArePlain()
    ensures '/' !in TemporaryImageFileName && '/' !in TemporaryMovieFileName
    ensures TemporaryImageFileName != TemporaryMovieFileName
  {
    assert TemporaryImageFileName[14] != TemporaryMovieFileName[14];
  }

  /** The two paths of a new asset, spelled out. */
  lemma NewAssetPaths(dir: Path, identifier: string)
    ensures NewLiveAsset(dir, identifier).imageFile.path == dir + "/live_resource.jpg"
    ensures NewLiveAsset(dir, identifier).movieFile.path == dir + "/live_resource.mov"
  {
    assert dir + "/" + TemporaryImageFileName == dir + "/live_resource.jpg";
    assert dir + "/" + TemporaryMovieFileName == dir + "/live_resource.mov";
  }

  /** The files of a new asset carry the `jpg` and `mov` extensions, so they
      would themselves pass image and movie validation. */
  lemma {:induction false} NewAssetExtensions(dir: Path, identifier: string)
    ensures PathExtension(NewLiveAsset(dir, identifier).imageFile.path) == "jpg"
    ensures PathExtension(NewLiveAsset(dir, identifier).movieFile.path) == "mov"
  {
    FileNamesSpelledOut();
    FileNamePartsArePlain();
    ExtensionOfFileName(dir, "live_resource", "jpg");
    ExtensionOfFileName(dir, "live_resource", "mov");
  }

  /** The parts of the fixed file names hold no `/`, and the extensions no `.`. */
  lemma FileNamePartsArePlain()
    ensures '/' !in "live_resource"
    ensures '/' !in "jpg" && '.' !in "jpg"
    ensures '/' !in "mov" && '.' !in "mov"
  {
  }

  /** The fixed file names as a stem, a `.` and an extension. */
  lemma FileNamesSpelledOut()
    ensures TemporaryImageFileName == "live_resource" + "." + "jpg"
    ensures TemporaryMovieFileName == "live_resource" + "." + "mov"
  {
  }

  /** The orchestrator's temporary directory as the file manager reports it:
      where it is (or why it could not be created), whether its contents can
      be listed, the names inside it, and the names whose removal fails. */
  datatype TemporaryStore = TemporaryStore(
    location: Result<Path, Error>,
    listable: bool,
    entries: set<string>,
    undeletable: set<string>)

  /** Every listed entry can be removed. */
  predicate Healthy(store: TemporaryStore)
  {
    store.location.Success? && store.listable && store.entries !! store.undeletable
  }

  /** A `LiveResource` instance: the asset it holds, and its directory. */
  datatype LiveResource = LiveResource(asset: Option<LiveAsset>, store: TemporaryStore)

  predicate Valid(r: LiveResource)
  {
    r.asset.Some? ==> WellFormedAsset(r.asset.value)
  }

  /** `flush()`: always drops the held asset; when the directory resolves and
      lists, removes every entry whose removal succeeds and ignores the rest. */
  function Flush(r: LiveResource): (f: LiveResource)
    ensures f.asset.None?
    ensures f.store == r.store.(entries := f.store.entries)
    ensures f.store.entries <= r.store.entries
    ensures r.store.location.Success? && r.store.listable ==>
      forall n | n in r.store.entries :: n in f.store.entries <==> n in r.store.undeletable
    ensures !(r.store.location.Success? && r.store.listable) ==> f.store.entries == r.store.entries
  {
    var store := r.store;
    var remaining :=
      if store.location.Success? && store.listable then store.entries * store.undeletable
      else store.entries;
    LiveResource(None, store.(entries := remaining))
  }

  /** Flushing a healthy directory empties it. */
  lemma FlushEmptiesHealthyStore(r: LiveResource)
    requires Healthy(r.store)
    ensures Flush(r).store.entries == {}
  {
  }

  /** A second flush changes nothing. */
  lemma FlushIdempotent(r: LiveResource)
    ensures Flush(Flush(r)) == Flush(r)
  {
  }

  /** `save(completionHandler:)`: nothing at all without a held asset;
      otherwise one library change adding the image as the photo and the
      movie as its paired video, and the library's outcome reported. */
  function Save(r: LiveResource, libraryOutcome: Option<Error>): (s: SaveRun)
    ensures r.asset.None? ==> s == SaveRun([], [])
    ensures r.asset.Some? ==>
      && s.changes == [AddResource(Photo, r.asset.value.imageFile.path),
                       AddResource(PairedVideo, r.asset.value.movieFile.path)]
      && s.reports == [libraryOutcome]
    ensures Valid(r) && r.asset.Some? ==>
      && s.changes[0].path != s.changes[1].path
      && DirectoryOf(s.changes[0].path) == DirectoryOf(s.changes[1].path)
  {
    match r.asset
    case None => SaveRun([], [])
    case Some(asset) =>
      SaveRun([AddResource(Photo, asset.imageFile.path), AddResource(PairedVideo, asset.movieFile.path)],
              [libraryOutcome])
  }

  /** The steps of `requestWith`, in source order. */
  datatype Step =
    | FlushStep
    | ValidateImage
    | ValidateMovie
    | ResolveTemporaryPath
    | CreateAsset
    | InjectJpg
    | InjectMov
    | RequestAssembly

  /** The order of the steps up to and including the movie injection. */
  const PipelineOrder: seq<Step> :=
    [FlushStep, ValidateImage, ValidateMovie, ResolveTemporaryPath, CreateAsset, InjectJpg, InjectMov]

  /** What the movie injector does, which this model takes as given: its
      outcome, and whether a (possibly partial) movie file is left behind. */
  datatype MovieInjection = MovieInjection(outcome: Outcome<Error>, leavesFile: bool)

  /** Everything a request learns from the platform. */
  datatype Platform = Platform(
    types: TypeDatabase,
    identifier: string,
    imageIO: JPGAppleMetadata.ImageIO,
    movieInjection: MovieInjection,
    assembly: seq<Option<LivePhoto>>)

  /** One call of the request's completion handler. */
  datatype Callback = Delivered(livePhoto: LivePhoto) | Failed(error: Error)

  /** The body of the `do` block: how many of its steps it attempted (the
      failing one last), the asset it created, the error it threw, and the
      names it wrote into the temporary directory. */
  datatype Attempt = Attempt(stepCount: nat, asset: Option<LiveAsset>, failure: Option<Error>, written: set<string>)

  /** What every run of the `do` block satisfies: it stops within its six
      steps, holds an asset exactly from the fourth step on, completes all six
      when nothing is thrown, and writes only the two fixed names. */
  predicate ConsistentAttempt(a: Attempt, location: Result<Path, Error>, identifier: string)
  {
    && 1 <= a.stepCount <= 6
    && (a.asset.Some? <==> a.stepCount >= 4)
    && (a.failure.None? ==> a.stepCount == 6)
    && (a.asset.None? ==> a.failure.Some? && a.written == {})
    && (a.asset.Some? ==> location.Success? && a.asset.value == NewLiveAsset(location.value, identifier))
    && a.written <= {TemporaryImageFileName, TemporaryMovieFileName}
  }

  function RunDoBlock(image: PathResource, movie: PathResource, location: Result<Path, Error>, p: Platform)
    : (a: Attempt)
    ensures ConsistentAttempt(a, location, p.identifier)
    ensures ValidateAsJpg(image, p.types).Failure? ==>
      a == Attempt(1, None, Some(ValidateAsJpg(image, p.types).error), {})
    ensures ValidateAsJpg(image, p.types).Success? && ValidateAsMov(movie, p.types).Failure? ==>
      a == Attempt(2, None, Some(ValidateAsMov(movie, p.types).error), {})
    ensures ValidateAsJpg(image, p.types).Success? && ValidateAsMov(movie, p.types).Success?
            && location.Failure? ==>
      a == Attempt(3, None, Some(location.error), {})
    ensures ValidateAsJpg(image, p.types).Success? && ValidateAsMov(movie, p.types).Success?
            && location.Success? ==>
      a == InjectFiles(image.asPath.value, NewLiveAsset(location.value, p.identifier), p)
  {
    var validImage := ValidateAsJpg(image, p.types);
    if validImage.Failure? then Attempt(1, None, Some(validImage.error), {})
    else
      var validMovie := ValidateAsMov(movie, p.types);
      if validMovie.Failure? then Attempt(2, None, Some(validMovie.error), {})
      else if location.Failure? then Attempt(3, None, Some(location.error), {})
      else InjectFiles(validImage.value.asPath.value, NewLiveAsset(location.value, p.identifier), p)
  }

  /** The two injections of the `do` block, once the asset exists: the JPEG
      copy first, whose error stops the block; then the movie copy. */
  function InjectFiles(imagePath: Path, asset: LiveAsset, p: Platform): (a: Attempt)
    ensures a.asset == Some(asset)
    ensures a.written <= {TemporaryImageFileName, TemporaryMovieFileName}
    ensures var jpg := JPGAppleMetadata.InjectToFile(imagePath, asset.imageFile, p.imageIO);
      && (jpg.Failure? ==> a.stepCount == 5 && a.failure == Some(Kit(jpg.error)))
      && (jpg.Failure? ==> a.written == {})
      && (jpg.Success? ==>
            (a.stepCount == 6
             && a.failure == (if p.movieInjection.outcome.Fail? then Some(p.movieInjection.outcome.error) else None)
             && (TemporaryImageFileName in a.written <==> jpg.value.finalized)
             && (TemporaryMovieFileName in a.written <==> p.movieInjection.leavesFile)))
  {
    var jpg := JPGAppleMetadata.InjectToFile(imagePath, asset.imageFile, p.imageIO);
    if jpg.Failure? then Attempt(5, Some(asset), Some(Kit(jpg.error)), {})
    else
      FixedNamesArePlain();
      var written := (if jpg.value.finalized then {TemporaryImageFileName} else {})
        + (if p.movieInjection.leavesFile then {TemporaryMovieFileName} else {});
      match p.movieInjection.outcome
      case Fail(e) => Attempt(6, Some(asset), Some(e), written)
      case Pass => Attempt(6, Some(asset), None, written)
  }

  /** The steps up to a given point of the pipeline: the flush, then the
      first `count` steps of the `do` block. */
  function StepsThrough(count: nat): (steps: seq<Step>)
    requires count <= 6
    ensures |steps| == count + 1 && steps <= PipelineOrder
    ensures CreateAsset in steps <==> count >= 4
  {
    var steps := PipelineOrder[..count + 1];
    assert forall k | 0 <= k < |steps| :: steps[k] == PipelineOrder[k];
    if count >= 4 then
      assert steps[4] == CreateAsset;
      steps
    else
      assert forall k | 0 <= k < 4 :: PipelineOrder[k] != CreateAsset;
      steps
  }

  /** The result handler of the assembly request: each live photo delivered,
      each empty result turned into a live-request problem naming the paths. */
  function AssemblyCallbacks(results: seq<Option<LivePhoto>>, paths: seq<Path>): (cbs: seq<Callback>)
    ensures |cbs| == |results|
    ensures forall i | 0 <= i < |results| ::
      cbs[i] == if results[i].Some? then Delivered(results[i].value)
                else Failed(Kit(LiveRequestProblemOccurred(paths)))
  {
    if |results| == 0 then []
    else
      var head := if results[0].Some? then Delivered(results[0].value)
                  else Failed(Kit(LiveRequestProblemOccurred(paths)));
      [head] + AssemblyCallbacks(results[1..], paths)
  }

  /** What one `requestWith` call does: the steps taken, the completion
      handler's calls, the paths handed to the assembly service, whether
      execution reached `fatalError`, and the orchestrator afterwards. */
  datatype RequestRun = RequestRun(
    steps: seq<Step>,
    callbacks: seq<Callback>,
    assemblyPaths: Option<seq<Path>>,
    crashed: bool,
    resource: LiveResource)

  /** The directory after the request's writes. */
  function AfterWrites(flushed: LiveResource, a: Attempt): TemporaryStore
  {
    flushed.store.(entries := flushed.store.entries + a.written)
  }

  /** What follows the `do`/`catch` as written: a thrown error is reported,
      then the code goes on; without an asset it reaches `fatalError`, with
      one it requests assembly and relays each result. */
  function FallThrough(flushed: LiveResource, attempt: Attempt, p: Platform): (run: RequestRun)
    requires ConsistentAttempt(attempt, flushed.store.location, p.identifier)
    ensures |run.steps| >= 2 && run.steps[0] == FlushStep
    ensures run.crashed <==> CreateAsset !in run.steps
    ensures run.crashed <==> run.resource.asset.None?
    ensures run.crashed ==> run.steps <= PipelineOrder && run.assemblyPaths.None?
    ensures !run.crashed ==>
      && run.steps[|run.steps| - 1] == RequestAssembly
      && run.steps[..|run.steps| - 1] <= PipelineOrder
      && run.assemblyPaths == Some([run.resource.asset.value.imageFile.path,
                                    run.resource.asset.value.movieFile.path])
      && flushed.store.location.Success?
      && run.resource.asset == Some(NewLiveAsset(flushed.store.location.value, p.identifier))
    ensures Valid(run.resource)
    ensures run.resource.store == AfterWrites(flushed, attempt)
  {
    var store := AfterWrites(flushed, attempt);
    var reported := if attempt.failure.Some? then [Failed(attempt.failure.value)] else [];
    match attempt.asset
    case None =>
      RequestRun(StepsThrough(attempt.stepCount), reported, None, true, LiveResource(None, store))
    case Some(asset) =>
      var paths := [asset.imageFile.path, asset.movieFile.path];
      var steps := StepsThrough(attempt.stepCount) + [RequestAssembly];
      assert steps[..|steps| - 1] == StepsThrough(attempt.stepCount);
      RequestRun(steps, reported + AssemblyCallbacks(p.assembly, paths), Some(paths), false,
                 LiveResource(Some(asset), store))
  }

  /** `requestWith(imageResource:movieResource:size:completionHandler:)` as
      written: flush, run the `do` block, then fall through. */
  function RequestWith(r: LiveResource, image: PathResource, movie: PathResource, p: Platform)
    : (run: RequestRun)
    ensures |run.steps| >= 2 && run.steps[0] == FlushStep
    ensures run.crashed <==> CreateAsset !in run.steps
    ensures run.crashed <==> run.resource.asset.None?
    ensures run.crashed ==> run.steps <= PipelineOrder && run.assemblyPaths.None?
    ensures !run.crashed ==>
      && run.steps[|run.steps| - 1] == RequestAssembly
      && run.steps[..|run.steps| - 1] <= PipelineOrder
      && run.assemblyPaths == Some([run.resource.asset.value.imageFile.path,
                                    run.resource.asset.value.movieFile.path])
      && r.store.location.Success?
      && run.resource.asset == Some(NewLiveAsset(r.store.location.value, p.identifier))
    ensures Valid(run.resource)
    ensures Healthy(r.store) ==>
      run.resource.store.entries <= {TemporaryImageFileName, TemporaryMovieFileName}
  {
    var flushed := Flush(r);
    FallThrough(flushed, RunDoBlock(image, movie, flushed.store.location, p), p)
  }

  /** What follows the `do`/`catch` once the `catch` block ends in `return`. */
  function Returning(flushed: LiveResource, attempt: Attempt, p: Platform): (run: RequestRun)
    requires ConsistentAttempt(attempt, flushed.store.location, p.identifier)
    ensures !run.crashed
    ensures attempt.failure.Some? ==>
      && run.steps <= PipelineOrder
      && run.callbacks == [Failed(attempt.failure.value)]
      && run.assemblyPaths.None?
    ensures attempt.failure.None? ==> run == FallThrough(flushed, attempt, p)
    ensures Valid(run.resource)
  {
    if attempt.failure.Some? then
      RequestRun(StepsThrough(attempt.stepCount), [Failed(attempt.failure.value)], None, false,
                 LiveResource(attempt.asset, AfterWrites(flushed, attempt)))
    else FallThrough(flushed, attempt, p)
  }

  /** `requestWith` with a `return` at the end of its `catch` block: a thrown
      error is reported once and ends the request. */
  function RequestWithReturning(r: LiveResource, image: PathResource, movie: PathResource, p: Platform)
    : (run: RequestRun)
    ensures !run.crashed
    ensures run.assemblyPaths.None? ==>
      && run.steps <= PipelineOrder
      && |run.callbacks| == 1 && run.callbacks[0].Failed?
    ensures run.assemblyPaths.Some? ==>
      && run.steps == PipelineOrder + [RequestAssembly]
      && run.resource.asset.Some?
      && run.assemblyPaths == Some([run.resource.asset.value.imageFile.path,
                                    run.resource.asset.value.movieFile.path])
      && |run.callbacks| == |p.assembly|
    ensures Valid(run.resource)
  {
    var flushed := Flush(r);
    var attempt := RunDoBlock(image, movie, flushed.store.location, p);
    assert StepsThrough(6) == PipelineOrder;
    Returning(flushed, attempt, p)
  }

  /** The request is the fall-through after the `do` block, which sees the
      same directory location as before the flush. */
  lemma RequestWithUnfolds(r: LiveResource, image: PathResource, movie: PathResource, p: Platform)
    ensures RequestWith(r, image, movie, p)
      == FallThrough(Flush(r), RunDoBlock(image, movie, r.store.location, p), p)
  {
    assert Flush(r).store.location == r.store.location;
  }

  /** A `do` block that stopped before the asset existed: its error, then
      `fatalError`. */
  lemma FallThroughWithoutAsset(flushed: LiveResource, attempt: Attempt, p: Platform)
    requires ConsistentAttempt(attempt, flushed.store.location, p.identifier)
    requires attempt.asset.None?
    ensures var run := FallThrough(flushed, attempt, p);
      && run.steps == StepsThrough(attempt.stepCount)
      && run.callbacks == [Failed(attempt.failure.value)]
      && run.crashed
  {
  }

  /** A `do` block that created the asset: its error if any, then the
      assembly results. */
  lemma FallThroughWithAsset(flushed: LiveResource, attempt: Attempt, p: Platform)
    requires ConsistentAttempt(attempt, flushed.store.location, p.identifier)
    requires attempt.asset.Some?
    ensures var run := FallThrough(flushed, attempt, p);
      var asset := attempt.asset.value;
      && run.steps == StepsThrough(attempt.stepCount) + [RequestAssembly]
      && run.callbacks == (if attempt.failure.Some? then [Failed(attempt.failure.value)] else [])
           + AssemblyCallbacks(p.assembly, [asset.imageFile.path, asset.movieFile.path])
      && !run.crashed
      && run.resource.asset == Some(asset)
  {
  }

  /** The step sequences the pipeline can stop at, spelled out. */
  lemma StepsSpelledOut()
    ensures StepsThrough(1) == [FlushStep, ValidateImage]
    ensures StepsThrough(2) == [FlushStep, ValidateImage, ValidateMovie]
    ensures StepsThrough(3) == [FlushStep, ValidateImage, ValidateMovie, ResolveTemporaryPath]
    ensures StepsThrough(5) == [FlushStep, ValidateImage, ValidateMovie, ResolveTemporaryPath, CreateAsset, InjectJpg]
    ensures StepsThrough(6) == PipelineOrder
  {
  }

  /** The `do` block past both validations and the directory creates the
      asset and stops at an error of the JPEG injection. */
  lemma DoBlockStopsAtJpg(image: PathResource, movie: PathResource, location: Result<Path, Error>, p: Platform)
    requires ValidateAsJpg(image, p.types).Success? && ValidateAsMov(movie, p.types).Success?
    requires location.Success?
    requires var asset := NewLiveAsset(location.value, p.identifier);
      JPGAppleMetadata.InjectToFile(image.asPath.value, asset.imageFile, p.imageIO).Failure?
    ensures var asset := NewLiveAsset(location.value, p.identifier);
      var a := RunDoBlock(image, movie, location, p);
      && a.stepCount == 5 && a.asset == Some(asset)
      && a.failure == Some(Kit(JPGAppleMetadata.InjectToFile(image.asPath.value, asset.imageFile, p.imageIO).error))
  {
    assert ValidateAsJpg(image, p.types).value == image;
  }

  /** Once the JPEG injection succeeds, the `do` block runs all six steps and
      throws what the movie injection throws. */
  lemma DoBlockCompletes(image: PathResource, movie: PathResource, location: Result<Path, Error>, p: Platform)
    requires ValidateAsJpg(image, p.types).Success? && ValidateAsMov(movie, p.types).Success?
    requires location.Success?
    requires var asset := NewLiveAsset(location.value, p.identifier);
      JPGAppleMetadata.InjectToFile(image.asPath.value, asset.imageFile, p.imageIO).Success?
    ensures var a := RunDoBlock(image, movie, location, p);
      && a.stepCount == 6 && a.asset == Some(NewLiveAsset(location.value, p.identifier))
      && a.failure == if p.movieInjection.outcome.Fail? then Some(p.movieInjection.outcome.error) else None
  {
    assert ValidateAsJpg(image, p.types).value == image;
  }

  /** The image fails validation: the error is reported, and execution then
      reaches `fatalError` without touching the movie. */
  lemma ImageValidationFailureCrashes(r: LiveResource, image: PathResource, movie: PathResource, p: Platform)
    requires ValidateAsJpg(image, p.types).Failure?
    ensures var run := RequestWith(r, image, movie, p);
      && run.steps == [FlushStep, ValidateImage]
      && run.callbacks == [Failed(ValidateAsJpg(image, p.types).error)]
      && run.crashed
  {
    var attempt := RunDoBlock(image, movie, r.store.location, p);
    assert attempt == Attempt(1, None, Some(ValidateAsJpg(image, p.types).error), {});
    RequestWithUnfolds(r, image, movie, p);
    FallThroughWithoutAsset(Flush(r), attempt, p);
    StepsSpelledOut();
  }

  /** The movie fails validation after the image passed: reported, then
      `fatalError`. */
  lemma MovieValidationFailureCrashes(r: LiveResource, image: PathResource, movie: PathResource, p: Platform)
    requires ValidateAsJpg(image, p.types).Success?
    requires ValidateAsMov(movie, p.types).Failure?
    ensures var run := RequestWith(r, image, movie, p);
      && run.steps == [FlushStep, ValidateImage, ValidateMovie]
      && run.callbacks == [Failed(ValidateAsMov(movie, p.types).error)]
      && run.crashed
  {
    var attempt := RunDoBlock(image, movie, r.store.location, p);
    assert attempt == Attempt(2, None, Some(ValidateAsMov(movie, p.types).error), {});
    RequestWithUnfolds(r, image, movie, p);
    FallThroughWithoutAsset(Flush(r), attempt, p);
    StepsSpelledOut();
  }

  /** The temporary directory cannot be created: reported, then `fatalError`. */
  lemma TemporaryPathFailureCrashes(r: LiveResource, image: PathResource, movie: PathResource, p: Platform)
    requires ValidateAsJpg(image, p.types).Success? && ValidateAsMov(movie, p.types).Success?
    requires r.store.location.Failure?
    ensures var run := RequestWith(r, image, movie, p);
      && run.steps == [FlushStep, ValidateImage, ValidateMovie, ResolveTemporaryPath]
      && run.callbacks == [Failed(r.store.location.error)]
      && run.crashed
  {
    var attempt := RunDoBlock(image, movie, r.store.location, p);
    assert attempt == Attempt(3, None, Some(r.store.location.error), {});
    RequestWithUnfolds(r, image, movie, p);
    FallThroughWithoutAsset(Flush(r), attempt, p);
    StepsSpelledOut();
  }

  /** The still-image injection fails: the error is reported, and the
      assembly is still requested for the two paths, whose results follow. */
  lemma JpgInjectionFailureStillAssembles(r: LiveResource, image: PathResource, movie: PathResource, p: Platform)
    requires ValidateAsJpg(image, p.types).Success? && ValidateAsMov(movie, p.types).Success?
    requires r.store.location.Success?
    requires var asset := NewLiveAsset(r.store.location.value, p.identifier);
      JPGAppleMetadata.InjectToFile(image.asPath.value, asset.imageFile, p.imageIO).Failure?
    ensures var asset := NewLiveAsset(r.store.location.value, p.identifier);
      var paths := [asset.imageFile.path, asset.movieFile.path];
      var run := RequestWith(r, image, movie, p);
      && run.steps == [FlushStep, ValidateImage, ValidateMovie, ResolveTemporaryPath, CreateAsset, InjectJpg, RequestAssembly]
      && run.callbacks ==
           [Failed(Kit(JPGAppleMetadata.InjectToFile(image.asPath.value, asset.imageFile, p.imageIO).error))]
           + AssemblyCallbacks(p.assembly, paths)
      && !run.crashed
      && run.resource.asset == Some(asset)
  {
    var attempt := RunDoBlock(image, movie, r.store.location, p);
    DoBlockStopsAtJpg(image, movie, r.store.location, p);
    RequestWithUnfolds(r, image, movie, p);
    FallThroughWithAsset(Flush(r), attempt, p);
    StepsSpelledOut();
  }

  /** The still-image injection fails: the request adds nothing to the
      flushed directory, so the assembly is asked about files it never wrote. */
  lemma JpgInjectionFailureWritesNothing(r: LiveResource, image: PathResource, movie: PathResource, p: Platform)
    requires ValidateAsJpg(image, p.types).Success? && ValidateAsMov(movie, p.types).Success?
    requires r.store.location.Success?
    requires var asset := NewLiveAsset(r.store.location.value, p.identifier);
      JPGAppleMetadata.InjectToFile(image.asPath.value, asset.imageFile, p.imageIO).Failure?
    ensures RequestWith(r, image, movie, p).resource.store.entries == Flush(r).store.entries
  {
    DoBlockStopsAtJpg(image, movie, r.store.location, p);
    RequestWithUnfolds(r, image, movie, p);
  }

  /** The movie injection fails after the still-image injection returned: the error
      is reported, and the assembly is still requested. */
  lemma MovInjectionFailureStillAssembles(r: LiveResource, image: PathResource, movie: PathResource, p: Platform)
    requires ValidateAsJpg(image, p.types).Success? && ValidateAsMov(movie, p.types).Success?
    requires r.store.location.Success?
    requires var asset := NewLiveAsset(r.store.location.value, p.identifier);
      JPGAppleMetadata.InjectToFile(image.asPath.value, asset.imageFile, p.imageIO).Success?
    requires p.movieInjection.outcome.Fail?
    ensures var asset := NewLiveAsset(r.store.location.value, p.identifier);
      var run := RequestWith(r, image, movie, p);
      && run.steps == PipelineOrder + [RequestAssembly]
      && run.callbacks == [Failed(p.movieInjection.outcome.error)]
           + AssemblyCallbacks(p.assembly, [asset.imageFile.path, asset.movieFile.path])
      && !run.crashed
  {
    var attempt := RunDoBlock(image, movie, r.store.location, p);
    DoBlockCompletes(image, movie, r.store.location, p);
    RequestWithUnfolds(r, image, movie, p);
    FallThroughWithAsset(Flush(r), attempt, p);
    StepsSpelledOut();
  }

  /** Every step succeeds: no error of the pipeline is reported; each
      assembly result is delivered, and an empty result is reported as a
      live-request problem naming the image path, then the movie path. */
  lemma SuccessfulRequest(r: LiveResource, image: PathResource, movie: PathResource, p: Platform)
    requires ValidateAsJpg(image, p.types).Success? && ValidateAsMov(movie, p.types).Success?
    requires r.store.location.Success?
    requires var asset := NewLiveAsset(r.store.location.value, p.identifier);
      JPGAppleMetadata.InjectToFile(image.asPath.value, asset.imageFile, p.imageIO).Success?
    requires p.movieInjection.outcome.Pass?
    ensures var dir := r.store.location.value;
      var run := RequestWith(r, image, movie, p);
      && run.steps == PipelineOrder + [RequestAssembly]
      && run.resource.asset == Some(NewLiveAsset(dir, p.identifier))
      && run.callbacks == AssemblyCallbacks(p.assembly, [dir + "/live_resource.jpg", dir + "/live_resource.mov"])
  {
    var dir := r.store.location.value;
    var asset := NewLiveAsset(dir, p.identifier);
    var attempt := RunDoBlock(image, movie, r.store.location, p);
    DoBlockCompletes(image, movie, r.store.location, p);
    RequestWithUnfolds(r, image, movie, p);
    FallThroughWithAsset(Flush(r), attempt, p);
    StepsSpelledOut();
    NewAssetPaths(dir, p.identifier);
  }

  /** A `do` block that throws nothing has created the asset, so the request
      does not crash. */
  lemma PipelineSuccessCreatesAsset(r: LiveResource, image: PathResource, movie: PathResource, p: Platform)
    requires RunDoBlock(image, movie, r.store.location, p).failure.None?
    ensures !RequestWith(r, image, movie, p).crashed
  {
    assert Flush(r).store.location == r.store.location;
  }

  /** Whatever was reported before, a request that did not crash ends with
      the relayed assembly results. */
  lemma CallbacksEndWithAssembly(r: LiveResource, image: PathResource, movie: PathResource, p: Platform)
    requires !RequestWith(r, image, movie, p).crashed
    ensures var run := RequestWith(r, image, movie, p);
      && |run.callbacks| >= |p.assembly|
      && run.callbacks[|run.callbacks| - |p.assembly|..] == AssemblyCallbacks(p.assembly, run.assemblyPaths.value)
  {
    var flushed := Flush(r);
    var attempt := RunDoBlock(image, movie, flushed.store.location, p);
    var run := FallThrough(flushed, attempt, p);
    assert attempt.asset.Some?;
    var reported := if attempt.failure.Some? then [Failed(attempt.failure.value)] else [];
    var tail := AssemblyCallbacks(p.assembly, run.assemblyPaths.value);
    assert run.callbacks == reported + tail;
    assert run.callbacks[|reported|..] == tail;
  }

  /** When the `do` block throws nothing, the request as written and the
      request with the `return` behave identically. */
  lemma ReturningAgreesWithoutFailure(r: LiveResource, image: PathResource, movie: PathResource, p: Platform)
    requires RunDoBlock(image, movie, r.store.location, p).failure.None?
    ensures RequestWith(r, image, movie, p) == RequestWithReturning(r, image, movie, p)
  {
  }

  /** With the `return`, a thrown error is the only thing the caller hears:
      one callback carrying it, no assembly request and no `fatalError`. */
  lemma ReturningReportsFailureOnce(r: LiveResource, image: PathResource, movie: PathResource, p: Platform)
    requires RunDoBlock(image, movie, r.store.location, p).failure.Some?
    ensures var run := RequestWithReturning(r, image, movie, p);
      && run.callbacks == [Failed(RunDoBlock(image, movie, r.store.location, p).failure.value)]
      && run.assemblyPaths.None?
      && !run.crashed
  {
  }

  /** Flushing after any request leaves a healthy directory empty, so a later
      request never sees an earlier request's files. */
  lemma FlushAfterRequestEmpties(r: LiveResource, image: PathResource, movie: PathResource, p: Platform)
    requires Healthy(r.store)
    requires TemporaryImageFileName !in r.store.undeletable
    requires TemporaryMovieFileName !in r.store.undeletable
    ensures Flush(RequestWith(r, image, movie, p).resource).store.entries == {}
  {
    var run := RequestWith(r, image, movie, p);
    assert run.resource.store.undeletable == r.store.undeletable;
    assert run.resource.store.location == r.store.location;
    assert run.resource.store.listable == r.store.listable;
  }

  /** Saving after a request that created an asset adds the tagged JPEG as
      the photo and the tagged movie as its paired video, from one directory. */
  lemma SaveAfterRequest(r: LiveResource, image: PathResource, movie: PathResource, p: Platform,
                         libraryOutcome: Option<Error>)
    requires !RequestWith(r, image, movie, p).crashed
    ensures var dir := r.store.location.value;
      Save(RequestWith(r, image, movie, p).resource, libraryOutcome).changes
        == [AddResource(Photo, dir + "/live_resource.jpg"), AddResource(PairedVideo, dir + "/live_resource.mov")]
  {
    NewAssetPaths(r.store.location.value, p.identifier);
  }
}

=== FILE: live_view.dfy ===
/** The presentation widget's control logic: its status machine, what each
    `show` call puts on screen, the blur decision, and the save gate.

    Each view transition and its completion block run as one atomic step. */
module LiveViews {
  import opened Wrappers
  import opened LKErrors
  import opened LiveConvertible
  import opened PhotoLibrary
  import opened LiveResources

  datatype Status = WaitingForResource | PreparingToShow | ShowingResource

  /** `UIBlurEffect.Style`. */
  datatype BlurStyle = ExtraLight | Light | Dark | Regular | Prominent | OtherStyle(name: string)

  /** `LiveView.Settings` without the transition duration. */
  datatype Settings = Settings(blurStyle: Option<BlurStyle>)

  const DefaultSettings: Settings := Settings(Some(Dark))

  /** A `LiveView`: its status and settings, the contents of its image view,
      live-photo view and blur view, and its live resource. */
  datatype LiveView = LiveView(
    status: Status,
    settings: Settings,
    image: Option<Image>,
    livePhoto: Option<LivePhoto>,
    blurEffect: Option<BlurStyle>,
    blurHidden: bool,
    resource: LiveResource)

  /** A view right after `init` and `setup()`: waiting, nothing shown, a
      regular blur effect installed, and a resource holding no asset. */
  function NewLiveView(store: TemporaryStore): (v: LiveView)
    ensures v.status == WaitingForResource
    ensures v.image.None? && v.livePhoto.None? && v.resource.asset.None?
  {
    LiveView(WaitingForResource, DefaultSettings, None, None, Some(Regular), false, LiveResource(None, store))
  }

  /** The effect `setBlurEnabled` installs: the configured style, only when
      blur is enabled. */
  function BlurEffect(style: Option<BlurStyle>, enabled: bool): (effect: Option<BlurStyle>)
    ensures effect.Some? <==> style.Some? && enabled
    ensures effect.Some? ==> effect == style
  {
    if style.Some? && enabled then style else None
  }

  /** `setBlurEnabled(_:animated:)`. The blur view is unhidden first; only
      an animated transition runs the completion that hides it again when
      blur is disabled. */
  function SetBlurEnabled(v: LiveView, enabled: bool, animated: bool): (w: LiveView)
    ensures w.blurEffect.Some? <==> v.settings.blurStyle.Some? && enabled
    ensures w.blurEffect == BlurEffect(v.settings.blurStyle, enabled)
    ensures w.blurHidden <==> animated && !enabled
    ensures w == v.(blurEffect := w.blurEffect, blurHidden := w.blurHidden)
  {
    v.(blurEffect := BlurEffect(v.settings.blurStyle, enabled), blurHidden := animated && !enabled)
  }

  /** `update(image:livePhoto:enableBlur:animated:completion:)` without the
      completion block, which each caller applies itself. */
  function Update(v: LiveView, image: Option<Image>, livePhoto: Option<LivePhoto>, enableBlur: bool, animated: bool)
    : (w: LiveView)
    ensures w.image == image && w.livePhoto == livePhoto
    ensures w.blurEffect == BlurEffect(v.settings.blurStyle, enableBlur)
    ensures w.status == v.status && w.settings == v.settings && w.resource == v.resource
  {
    SetBlurEnabled(v.(image := image, livePhoto := livePhoto), enableBlur, animated)
  }

  /** The view after a call, the values passed to the caller's completion
      handler in order (`None` is a nil error), and whether execution
      reached `fatalError`. */
  datatype ViewRun = ViewRun(view: LiveView, reports: seq<Option<Error>>, crashed: bool)

  /** `show(placeholderImage:animated:completionHandler:)`: on success the
      image is shown under the blur and the view waits for a resource; a
      conversion error leaves the view as it was and is reported. */
  function ShowPlaceholder(v: LiveView, conversion: Result<Image, Error>, animated: bool): (run: ViewRun)
    ensures !run.crashed && |run.reports| == 1
    ensures conversion.Failure? ==> run.view == v && run.reports == [Some(conversion.error)]
    ensures conversion.Success? ==>
      && run.view.status == WaitingForResource
      && run.view.image == Some(conversion.value) && run.view.livePhoto.None?
      && (run.view.blurEffect.Some? <==> v.settings.blurStyle.Some?)
      && run.view.blurEffect == v.settings.blurStyle
      && run.reports == [None]
    ensures run.view.settings == v.settings && run.view.resource == v.resource
  {
    match conversion
    case Failure(e) => ViewRun(v, [Some(e)], false)
    case Success(image) =>
      ViewRun(Update(v, Some(image), None, true, animated).(status := WaitingForResource), [None], false)
  }

  /** `show(image:animated:completionHandler:)`: on success the image is
      shown without blur and the view shows a resource; a conversion error
      leaves the view as it was and is reported. */
  function ShowImage(v: LiveView, conversion: Result<Image, Error>, animated: bool): (run: ViewRun)
    ensures !run.crashed && |run.reports| == 1
    ensures conversion.Failure? ==> run.view == v && run.reports == [Some(conversion.error)]
    ensures conversion.Success? ==>
      && run.view.status == ShowingResource
      && run.view.image == Some(conversion.value) && run.view.livePhoto.None?
      && run.view.blurEffect.None?
      && run.reports == [None]
    ensures run.view.settings == v.settings && run.view.resource == v.resource
  {
    match conversion
    case Failure(e) => ViewRun(v, [Some(e)], false)
    case Success(image) =>
      ViewRun(Update(v, Some(image), None, false, animated).(status := ShowingResource), [None], false)
  }

  /** The live `show`'s result handler applied to each completion of the
      request in turn: an error restores the status held before the call and
      is reported; a live photo is shown without blur, the view shows a
      resource, and a nil error is reported. */
  function ApplyCallbacks(v: LiveView, previous: Status, callbacks: seq<Callback>, animated: bool)
    : (run: ViewRun)
    ensures !run.crashed
    ensures |run.reports| == |callbacks|
    ensures forall i | 0 <= i < |callbacks| ::
      run.reports[i] == if callbacks[i].Failed? then Some(callbacks[i].error) else None
    ensures callbacks == [] ==> run.view == v
    ensures callbacks != [] && (forall i | 0 <= i < |callbacks| :: callbacks[i].Failed?) ==>
      run.view == v.(status := previous)
    ensures callbacks != [] ==>
      var last := callbacks[|callbacks| - 1];
      && run.view.status == (if last.Failed? then previous else ShowingResource)
      && (last.Delivered? ==> run.view.livePhoto == Some(last.livePhoto) && run.view.image.None?)
      && (last.Delivered? ==> run.view.blurEffect.None?)
    ensures run.view.resource == v.resource && run.view.settings == v.settings
    decreases |callbacks|
  {
    if |callbacks| == 0 then ViewRun(v, [], false)
    else
      var next := match callbacks[0]
        case Failed(_) => v.(status := previous)
        case Delivered(photo) => Update(v.(status := ShowingResource), None, Some(photo), false, animated);
      var report := if callbacks[0].Failed? then Some(callbacks[0].error) else None;
      var rest := ApplyCallbacks(next, previous, callbacks[1..], animated);
      ViewRun(rest.view, [report] + rest.reports, false)
  }

  /** The live `show` around a given request outcome: the status becomes
      `preparingToShow` before the request, then each completion is applied. */
  function ShowLiveWith(v: LiveView, request: RequestRun, animated: bool): (run: ViewRun)
    ensures run.crashed == request.crashed
    ensures |run.reports| == |request.callbacks|
    ensures request.callbacks == [] ==> run.view.status == PreparingToShow
    ensures request.callbacks != [] ==>
      run.view.status == if request.callbacks[|request.callbacks| - 1].Failed? then v.status else ShowingResource
    ensures run.view.resource == request.resource
    ensures |request.callbacks| == 1 && request.callbacks[0].Failed? ==>
      run.view == v.(resource := request.resource)
    ensures request.callbacks != [] && request.callbacks[|request.callbacks| - 1].Delivered? ==>
      && run.view.livePhoto == Some(request.callbacks[|request.callbacks| - 1].livePhoto)
      && run.view.image.None? && run.view.blurEffect.None?
    ensures run.view.settings == v.settings
  {
    var previous := v.status;
    var preparing := v.(status := PreparingToShow, resource := request.resource);
    var applied := ApplyCallbacks(preparing, previous, request.callbacks, animated);
    ViewRun(applied.view, applied.reports, request.crashed)
  }

  /** `show(imageResource:movieResource:animated:completionHandler:)` over the
      request as written, whose `catch` block falls through. */
  function ShowLiveAsWritten(v: LiveView, image: PathResource, movie: PathResource, p: Platform, animated: bool)
    : (run: ViewRun)
    ensures run.crashed <==> run.view.resource.asset.None?
    ensures Valid(run.view.resource)
  {
    ShowLiveWith(v, RequestWith(v.resource, image, movie, p), animated)
  }

  /** `show(imageResource:movieResource:animated:completionHandler:)` over the
      request whose `catch` block returns: it never crashes, and when the
      pipeline fails, the caller hears that one error and the view returns to
      its earlier status. */
  function ShowLive(v: LiveView, image: PathResource, movie: PathResource, p: Platform, animated: bool)
    : (run: ViewRun)
    ensures !run.crashed
    ensures Valid(run.view.resource)
    ensures RequestWithReturning(v.resource, image, movie, p).assemblyPaths.None? ==>
      && |run.reports| == 1 && run.reports[0].Some?
      && run.view == v.(resource := run.view.resource)
  {
    ShowLiveWith(v, RequestWithReturning(v.resource, image, movie, p), animated)
  }

  /** `saveToLibrary(completionHandler:)`: refused unless a resource is
      shown; a shown live photo is saved through the resource, a shown image
      as a new asset, and otherwise there is nothing to save. */
  function SaveToLibrary(v: LiveView, libraryOutcome: Option<Error>): (s: SaveRun)
    ensures v.status != ShowingResource ==> s == SaveRun([], [Some(Kit(NothingToSave))])
    ensures s.changes != [] ==> v.status == ShowingResource
    ensures v.status == ShowingResource && v.livePhoto.Some? ==> s == Save(v.resource, libraryOutcome)
    ensures v.status == ShowingResource && v.livePhoto.None? && v.image.Some? ==>
      s == SaveRun([CreateAssetFromImage(v.image.value)], [libraryOutcome])
    ensures v.status == ShowingResource && v.livePhoto.None? && v.image.None? ==>
      s == SaveRun([], [Some(Kit(NothingToSave))])
  {
    if v.status != ShowingResource then SaveRun([], [Some(Kit(NothingToSave))])
    else if v.livePhoto.Some? then Save(v.resource, libraryOutcome)
    else if v.image.Some? then SaveRun([CreateAssetFromImage(v.image.value)], [libraryOutcome])
    else SaveRun([], [Some(Kit(NothingToSave))])
  }

  /** A new view has nothing to save. */
  lemma NewViewHasNothingToSave(store: TemporaryStore, libraryOutcome: Option<Error>)
    ensures SaveToLibrary(NewLiveView(store), libraryOutcome) == SaveRun([], [Some(Kit(NothingToSave))])
  {
  }

  /** A placeholder never counts as a shown resource: saving right after it
      is refused. */
  lemma PlaceholderIsNotSaved(v: LiveView, image: Image, animated: bool, libraryOutcome: Option<Error>)
    ensures SaveToLibrary(ShowPlaceholder(v, Success(image), animated).view, libraryOutcome)
      == SaveRun([], [Some(Kit(NothingToSave))])
  {
  }

  /** Saving right after a still image was shown adds exactly that image. */
  lemma ShownImageIsSaved(v: LiveView, image: Image, animated: bool, libraryOutcome: Option<Error>)
    ensures SaveToLibrary(ShowImage(v, Success(image), animated).view, libraryOutcome)
      == SaveRun([CreateAssetFromImage(image)], [libraryOutcome])
  {
  }

  /** A request whose pipeline succeeds creates an asset, and its last
      completion relays the last assembly result. */
  lemma SuccessfulPipelineEndsWithAssembly(r: LiveResource, image: PathResource, movie: PathResource, p: Platform)
    requires RunDoBlock(image, movie, r.store.location, p).failure.None?
    requires p.assembly != [] && p.assembly[|p.assembly| - 1].Some?
    ensures var request := RequestWithReturning(r, image, movie, p);
      && !RequestWith(r, image, movie, p).crashed
      && request.callbacks != []
      && request.callbacks[|request.callbacks| - 1] == Delivered(p.assembly[|p.assembly| - 1].value)
  {
    ReturningAgreesWithoutFailure(r, image, movie, p);
    PipelineSuccessCreatesAsset(r, image, movie, p);
    CallbacksEndWithAssembly(r, image, movie, p);
    var cbs := RequestWith(r, image, movie, p).callbacks;
    assert cbs[|cbs| - 1] == cbs[|cbs| - |p.assembly|..][|p.assembly| - 1];
  }

  /** Saving right after a live photo was delivered adds the tagged JPEG and
      the tagged movie from the temporary directory. */
  lemma ShownLivePhotoIsSaved(v: LiveView, image: PathResource, movie: PathResource, p: Platform, animated: bool,
                              libraryOutcome: Option<Error>)
    requires RunDoBlock(image, movie, v.resource.store.location, p).failure.None?
    requires p.assembly != [] && p.assembly[|p.assembly| - 1].Some?
    ensures var dir := v.resource.store.location.value;
      SaveToLibrary(ShowLive(v, image, movie, p, animated).view, libraryOutcome)
        == SaveRun([AddResource(Photo, dir + "/live_resource.jpg"), AddResource(PairedVideo, dir + "/live_resource.mov")],
                   [libraryOutcome])
  {
    SuccessfulPipelineEndsWithAssembly(v.resource, image, movie, p);
    ReturningAgreesWithoutFailure(v.resource, image, movie, p);
    SaveAfterRequest(v.resource, image, movie, p, libraryOutcome);
  }

  /** A shown resource is never blurred. */
  predicate Unblurred(v: LiveView)
  {
    v.status == ShowingResource ==> v.blurEffect.None?
  }

  lemma NewViewIsUnblurred(store: TemporaryStore)
    ensures Unblurred(NewLiveView(store))
  {
  }

  lemma ShowPlaceholderKeepsUnblurred(v: LiveView, conversion: Result<Image, Error>, animated: bool)
    requires Unblurred(v)
    ensures Unblurred(ShowPlaceholder(v, conversion, animated).view)
  {
  }

  lemma ShowImageKeepsUnblurred(v: LiveView, conversion: Result<Image, Error>, animated: bool)
    requires Unblurred(v)
    ensures Unblurred(ShowImage(v, conversion, animated).view)
  {
  }

  /** Restoring `previous` on an error keeps the view unblurred as long as
      that status would have been unblurred with the current effect. */
  lemma {:induction false} ApplyCallbacksKeepsUnblurred(v: LiveView, previous: Status, callbacks: seq<Callback>,
                                                        animated: bool)
    requires Unblurred(v)
    requires previous == ShowingResource ==> v.blurEffect.None?
    ensures Unblurred(ApplyCallbacks(v, previous, callbacks, animated).view)
    decreases |callbacks|
  {
    if |callbacks| > 0 {
      var next := match callbacks[0]
        case Failed(_) => v.(status := previous)
        case Delivered(photo) => Update(v.(status := ShowingResource), None, Some(photo), false, animated);
      ApplyCallbacksKeepsUnblurred(next, previous, callbacks[1..], animated);
    }
  }

  /** Whatever the request does, the live `show` keeps the view unblurred. */
  lemma ShowLiveWithKeepsUnblurred(v: LiveView, request: RequestRun, animated: bool)
    requires Unblurred(v)
    ensures Unblurred(ShowLiveWith(v, request, animated).view)
  {
    var preparing := v.(status := PreparingToShow, resource := request.resource);
    ApplyCallbacksKeepsUnblurred(preparing, v.status, request.callbacks, animated);
  }

  /** As written, a still-image injection error is reported, yet a live photo
      assembled afterwards is still shown: the caller hears an error and then
      success, and the view ends up showing a resource. */
  lemma InjectionErrorThenShown(v: LiveView, image: PathResource, movie: PathResource, p: Platform, animated: bool,
                                photo: LivePhoto)
    requires ValidateAsJpg(image, p.types).Success? && ValidateAsMov(movie, p.types).Success?
    requires v.resource.store.location.Success?
    requires var asset := NewLiveAsset(v.resource.store.location.value, p.identifier);
      JPGAppleMetadata.InjectToFile(image.asPath.value, asset.imageFile, p.imageIO).Failure?
    requires p.assembly == [Some(photo)]
    ensures var run := ShowLiveAsWritten(v, image, movie, p, animated);
      && |run.reports| == 2 && run.reports[0].Some? && run.reports[1].None?
      && run.view.status == ShowingResource
      && run.view.livePhoto == Some(photo)
  {
    JpgInjectionFailureStillAssembles(v.resource, image, movie, p);
  }

  /** With the `return`, the same injection error is the only report, the
      view goes back to the status it had before the call, and nothing is
      shown in place of the live photo. */
  lemma InjectionErrorRestoresStatus(v: LiveView, image: PathResource, movie: PathResource, p: Platform,
                                     animated: bool)
    requires ValidateAsJpg(image, p.types).Success? && ValidateAsMov(movie, p.types).Success?
    requires v.resource.store.location.Success?
    requires var asset := NewLiveAsset(v.resource.store.location.value, p.identifier);
      JPGAppleMetadata.InjectToFile(image.asPath.value, asset.imageFile, p.imageIO).Failure?
    ensures var asset := NewLiveAsset(v.resource.store.location.value, p.identifier);
      var run := ShowLive(v, image, movie, p, animated);
      && run.reports == [Some(Kit(JPGAppleMetadata.InjectToFile(image.asPath.value, asset.imageFile, p.imageIO).error))]
      && run.view.status == v.status
      && run.view.livePhoto == v.livePhoto && run.view.image == v.image
  {
    var request := RequestWithReturning(v.resource, image, movie, p);
    var attempt := RunDoBlock(image, movie, Flush(v.resource).store.location, p);
    assert attempt.stepCount == 5;
    assert request.callbacks == [Failed(attempt.failure.value)];
  }
}

=== FILE: lk_error.dfy ===
/** The library's closed set of errors, their user-facing messages, and the
    `LocalizedError` view of them.

    An error that carries a `PathConvertible` or an `ImageConvertible` holds it
    here as the text that Swift string interpolation prints for it, which is
    the only thing the error ever does with it. */
module LKErrors {
  import opened Wrappers
  import opened Strings

  datatype LKError =
    | NothingToSave
    | LiveRequestProblemOccurred(filePaths: seq<string>)
    | InvalidImageSource(imageSource: string)
    | InvalidFilePath(filePath: string)
    | InvalidFileType(filePath: string, expectedType: string)
    | InvalidFile(filePath: string)
    | InvalidFileMetadata(filePath: string)

  /** Anything a completion handler can receive: one of the library's own
      errors, or an error raised by the platform (file manager, asset writer). */
  datatype Error = Kit(lk: LKError) | Underlying(description: string)

  const NothingToSaveMessage: string := "There's nothing to save"
  const LiveRequestHeader: string := "Couldn't create live resource with paths:\n"
  const ImageSourceHeader: string := "Couldn't retrieve image from:\n"
  const FilePathHeader: string := "Couldn't retrieve file from:\n"
  const FileTypeHeader: string := "Couldn't validate as \""
  const FileTypeSeparator: string := "\" file at:\n"
  const InvalidFileHeader: string := "Invalid file at:\n"
  const InvalidMetadataHeader: string := "Invalid file metadata at:\n"

  /** `LKError.localizedDescription`: each case's fixed header, then its
      subject. A message about a file ends with that file's path; the expected
      type of a type error sits in double quotes right after its header; an
      empty path list leaves the live-request header alone. */
  function LocalizedDescription(e: LKError): (m: string)
    ensures e.NothingToSave? ==> m == NothingToSaveMessage
    ensures e.LiveRequestProblemOccurred? ==>
      LiveRequestHeader <= m && m[|LiveRequestHeader|..] == JoinLines(e.filePaths)
    ensures e.LiveRequestProblemOccurred? && e.filePaths == [] ==> m == LiveRequestHeader
    ensures e.InvalidImageSource? ==> ImageSourceHeader <= m && EndsWith(m, e.imageSource)
    ensures e.InvalidFilePath? ==> FilePathHeader <= m && EndsWith(m, e.filePath)
    ensures e.InvalidFileType? ==>
      FileTypeHeader + e.expectedType + FileTypeSeparator <= m && EndsWith(m, e.filePath)
    ensures e.InvalidFile? ==> InvalidFileHeader <= m && EndsWith(m, e.filePath)
    ensures e.InvalidFileMetadata? ==> InvalidMetadataHeader <= m && EndsWith(m, e.filePath)
  {
    match e
    case NothingToSave => NothingToSaveMessage
    case LiveRequestProblemOccurred(paths) => LiveRequestHeader + JoinLines(paths)
    case InvalidImageSource(source) => ImageSourceHeader + source
    case InvalidFilePath(path) => FilePathHeader + path
    case InvalidFileType(path, expected) => FileTypeHeader + expected + FileTypeSeparator + path
    case InvalidFile(path) => InvalidFileHeader + path
    case InvalidFileMetadata(path) => InvalidMetadataHeader + path
  }

  /** Reads a message back into the error it describes, trying the fixed
      headers in the order the cases are declared. */
  function Decode(m: string): Option<LKError>
  {
    if m == NothingToSaveMessage then Some(NothingToSave)
    else if LiveRequestHeader <= m then
      Some(LiveRequestProblemOccurred(DecodePaths(m[|LiveRequestHeader|..])))
    else if ImageSourceHeader <= m then Some(InvalidImageSource(m[|ImageSourceHeader|..]))
    else if FilePathHeader <= m then Some(InvalidFilePath(m[|FilePathHeader|..]))
    else if FileTypeHeader <= m then DecodeFileTypeTail(m[|FileTypeHeader|..])
    else if InvalidFileHeader <= m then Some(InvalidFile(m[|InvalidFileHeader|..]))
    else if InvalidMetadataHeader <= m then Some(InvalidFileMetadata(m[|InvalidMetadataHeader|..]))
    else None
  }

  /** The path list printed after the live-request header; no text is no path. */
  function DecodePaths(rest: string): seq<string>
  {
    if rest == "" then [] else SplitLines(rest)
  }

  /** The expected type up to the first double quote, then the fixed separator,
      then the path. */
  function DecodeFileTypeTail(rest: string): Option<LKError>
  {
    match FirstIndexOf(rest, '"')
    case None => None
    case Some(i) =>
      var tail := rest[i..];
      if FileTypeSeparator <= tail
      then Some(InvalidFileType(tail[|FileTypeSeparator|..], rest[..i]))
      else None
  }

  /** The errors whose message can be read back unambiguously: listed paths
      without line breaks (and not the single empty path, which prints like no
      path at all), and an expected type without a double quote. */
  predicate Decodable(e: LKError)
  {
    match e
    case LiveRequestProblemOccurred(paths) =>
      paths != [""] && forall i | 0 <= i < |paths| :: '\n' !in paths[i]
    case InvalidFileType(_, expected) => '"' !in expected
    case _ => true
  }

  /** Two strings that differ at position `k` are neither equal nor is the
      first a prefix of the second. */
  lemma DiffersAt(h: string, m: string, k: nat)
    requires k < |h| && k < |m| && h[k] != m[k]
    ensures !(h <= m) && h != m
  {
  }

  /** Every message starting with `header` keeps that header's characters. */
  lemma HeaderChars(header: string, rest: string, k: nat)
    requires k < |header|
    ensures (header + rest)[k] == header[k]
  {
  }

  /** The listed paths are recovered from the tail of a live-request message. */
  lemma {:induction false} DecodeFilePaths(paths: seq<string>)
    requires paths != [""] && forall i | 0 <= i < |paths| :: '\n' !in paths[i]
    ensures DecodePaths(JoinLines(paths)) == paths
  {
    if |paths| == 1 {
      assert paths == [paths[0]];
      assert JoinLines(paths) != "";
      SplitJoinRoundTrip(paths);
    } else if |paths| > 1 {
      assert |JoinLines(paths)| > 0;
      SplitJoinRoundTrip(paths);
    }
  }

  /** The type and path are recovered from the tail of an invalid-type message. */
  lemma {:induction false} DecodeFileType(path: string, expected: string)
    requires '"' !in expected
    ensures DecodeFileTypeTail(expected + FileTypeSeparator + path) == Some(InvalidFileType(path, expected))
  {
    var rest := expected + FileTypeSeparator + path;
    assert rest[|expected|] == '"';
    assert forall k | 0 <= k < |expected| :: rest[k] == expected[k];
    assert FirstIndexOf(rest, '"') == Some(|expected|);
    assert rest[..|expected|] == expected;
    var tail := rest[|expected|..];
    assert tail == FileTypeSeparator + path;
    assert tail[..|FileTypeSeparator|] == FileTypeSeparator;
    assert tail[|FileTypeSeparator|..] == path;
  }

  lemma DecodeLiveRequestHeader(rest: string)
    ensures Decode(LiveRequestHeader + rest) == Some(LiveRequestProblemOccurred(DecodePaths(rest)))
  {
    var m := LiveRequestHeader + rest;
    HeaderChars(LiveRequestHeader, rest, 0);
    DiffersAt(NothingToSaveMessage, m, 0);
    assert m[..|LiveRequestHeader|] == LiveRequestHeader;
    assert m[|LiveRequestHeader|..] == rest;
  }

  lemma DecodeImageSource(source: string)
    ensures Decode(ImageSourceHeader + source) == Some(InvalidImageSource(source))
  {
    var m := ImageSourceHeader + source;
    HeaderChars(ImageSourceHeader, source, 0);
    HeaderChars(ImageSourceHeader, source, 9);
    DiffersAt(NothingToSaveMessage, m, 0);
    DiffersAt(LiveRequestHeader, m, 9);
    assert m[|ImageSourceHeader|..] == source;
  }

  lemma DecodeFilePath(path: string)
    ensures Decode(FilePathHeader + path) == Some(InvalidFilePath(path))
  {
    var m := FilePathHeader + path;
    HeaderChars(FilePathHeader, path, 0);
    HeaderChars(FilePathHeader, path, 9);
    HeaderChars(FilePathHeader, path, 18);
    DiffersAt(NothingToSaveMessage, m, 0);
    DiffersAt(LiveRequestHeader, m, 9);
    DiffersAt(ImageSourceHeader, m, 18);
    assert m[|FilePathHeader|..] == path;
  }

  lemma DecodeInvalidFileType(path: string, expected: string)
    requires '"' !in expected
    ensures Decode(FileTypeHeader + expected + FileTypeSeparator + path)
         == Some(InvalidFileType(path, expected))
  {
    var rest := expected + FileTypeSeparator + path;
    var m := FileTypeHeader + rest;
    assert FileTypeHeader + expected + FileTypeSeparator + path == m;
    assert m != NothingToSaveMessage && !(LiveRequestHeader <= m)
        && !(ImageSourceHeader <= m) && !(FilePathHeader <= m) by {
      HeaderChars(FileTypeHeader, rest, 0);
      HeaderChars(FileTypeHeader, rest, 9);
      DiffersAt(NothingToSaveMessage, m, 0);
      DiffersAt(LiveRequestHeader, m, 9);
      DiffersAt(ImageSourceHeader, m, 9);
      DiffersAt(FilePathHeader, m, 9);
    }
    assert FileTypeHeader <= m && m[|FileTypeHeader|..] == rest by {
      assert m[..|FileTypeHeader|] == FileTypeHeader;
    }
    DecodeFileType(path, expected);
  }

  lemma DecodeInvalidFile(path: string)
    ensures Decode(InvalidFileHeader + path) == Some(InvalidFile(path))
  {
    var m := InvalidFileHeader + path;
    HeaderChars(InvalidFileHeader, path, 0);
    DiffersAt(NothingToSaveMessage, m, 0);
    DiffersAt(LiveRequestHeader, m, 0);
    DiffersAt(ImageSourceHeader, m, 0);
    DiffersAt(FilePathHeader, m, 0);
    DiffersAt(FileTypeHeader, m, 0);
    assert m[|InvalidFileHeader|..] == path;
  }

  lemma DecodeInvalidMetadata(path: string)
    ensures Decode(InvalidMetadataHeader + path) == Some(InvalidFileMetadata(path))
  {
    var m := InvalidMetadataHeader + path;
    HeaderChars(InvalidMetadataHeader, path, 0);
    HeaderChars(InvalidMetadataHeader, path, 13);
    DiffersAt(NothingToSaveMessage, m, 0);
    DiffersAt(LiveRequestHeader, m, 0);
    DiffersAt(ImageSourceHeader, m, 0);
    DiffersAt(FilePathHeader, m, 0);
    DiffersAt(FileTypeHeader, m, 0);
    DiffersAt(InvalidFileHeader, m, 13);
    assert m[|InvalidMetadataHeader|..] == path;
  }

  /** No information is lost in a message: decoding the description of a
      decodable error gives that error back. */
  lemma DecodeDescription(e: LKError)
    requires Decodable(e)
    ensures Decode(LocalizedDescription(e)) == Some(e)
  {
    match e
    case NothingToSave =>
    case LiveRequestProblemOccurred(paths) =>
      DecodeLiveRequestHeader(JoinLines(paths));
      DecodeFilePaths(paths);
    case InvalidImageSource(source) => DecodeImageSource(source);
    case InvalidFilePath(path) => DecodeFilePath(path);
    case InvalidFileType(path, expected) => DecodeInvalidFileType(path, expected);
    case InvalidFile(path) => DecodeInvalidFile(path);
    case InvalidFileMetadata(path) => DecodeInvalidMetadata(path);
  }

  /** Two decodable errors with the same message are the same error. */
  lemma DescriptionsDistinguishErrors(a: LKError, b: LKError)
    requires Decodable(a) && Decodable(b)
    requires LocalizedDescription(a) == LocalizedDescription(b)
    ensures a == b
  {
    DecodeDescription(a);
    DecodeDescription(b);
  }

  /** Every message that starts with the live-request header reads back as
      a decodable live-request problem whose message is that same text: the
      decoder loses nothing on this case. */
  lemma DecodedLiveRequestDescribesItself(m: string)
    requires LiveRequestHeader <= m
    ensures Decode(m).Some? && Decode(m).value.LiveRequestProblemOccurred?
    ensures Decodable(Decode(m).value)
    ensures LocalizedDescription(Decode(m).value) == m
  {
    assert m[0] == LiveRequestHeader[0] != NothingToSaveMessage[0];
    var rest := m[|LiveRequestHeader|..];
    assert m == LiveRequestHeader + rest;
    if rest != "" {
      SplitLinesHaveNoBreaks(rest);
      JoinSplitRoundTrip(rest);
      assert JoinLines([""]) == "";
    }
  }

  /** The text `"[<kit name>] "` that every `errorDescription` starts with. */
  function KitPrefix(kitName: string): string
  {
    "[" + kitName + "] "
  }

  /** `LKError.errorDescription`: the kit name in brackets, then the message. */
  function ErrorDescription(e: LKError, kitName: string): (r: Option<string>)
    ensures r.Some?
    ensures KitPrefix(kitName) <= r.value
    ensures r.value[|KitPrefix(kitName)|..] == LocalizedDescription(e)
  {
    Some(KitPrefix(kitName) + LocalizedDescription(e))
  }

  /** The four `LocalizedError` requirements. */
  datatype LocalizedFields = LocalizedFields(
    errorDescription: Option<string>,
    failureReason: Option<string>,
    recoverySuggestion: Option<string>,
    helpAnchor: Option<string>)

  /** `LKError` seen as a `LocalizedError`: only the description is provided. */
  function AsLocalizedError(e: LKError, kitName: string): (r: LocalizedFields)
    ensures r.failureReason.None? && r.recoverySuggestion.None? && r.helpAnchor.None?
    ensures r.errorDescription == ErrorDescription(e, kitName)
  {
    LocalizedFields(ErrorDescription(e, kitName), None, None, None)
  }

  /** Past the kit prefix, the `errorDescription` of a decodable error reads
      back as that error. */
  lemma ErrorDescriptionDecodes(e: LKError, kitName: string)
    requires Decodable(e)
    ensures Decode(AsLocalizedError(e, kitName).errorDescription.value[|KitPrefix(kitName)|..]) == Some(e)
  {
    DecodeDescription(e);
  }
}

=== FILE: paths.dfy ===
/** File paths as Foundation's `URL(fileURLWithPath:)` splits them: a directory,
    a last component, and the extension of that component. */
module Paths {
  import opened Wrappers
  import opened Strings

  type Path = string

  /** A file written by the pipeline, tagged with the identifier that couples it
      to its sibling file. */
  datatype FileAsset = FileAsset(identifier: string, path: Path)

  /** The last `/`-separated component of a path. */
  function LastComponent(p: Path): (r: string)
    ensures '/' !in r
    ensures |r| <= |p| && r == p[|p| - |r|..]
  {
    match LastIndexOf(p, '/')
    case None => p
    case Some(i) => p[i + 1..]
  }

  /** Everything before the last `/`; empty when the path has none. */
  function DirectoryOf(p: Path): (r: Path)
    ensures r <= p
  {
    match LastIndexOf(p, '/')
    case None => ""
    case Some(i) => p[..i]
  }

  /** The extension of a path: the text after the last `.` of its last component,
      or empty when that component has no `.` or starts with its only one. */
  function PathExtension(p: Path): string
  {
    var name := LastComponent(p);
    match LastIndexOf(name, '.')
    case None => ""
    case Some(i) => if i == 0 then "" else name[i + 1..]
  }

  /** A character absent from a sequence is absent from its tails. */
  lemma AbsentFromTail(s: string, c: char, i: nat)
    requires c !in s && i <= |s|
    ensures c !in s[i..]
  {
    forall k | 0 <= k < |s| - i ensures s[i..][k] != c {
      assert s[i..][k] == s[i + k];
    }
  }

  /** A non-empty extension is a `.`-free, `/`-free suffix of the path, right
      after a `.`. */
  lemma ExtensionIsSuffix(p: Path)
    ensures var r := PathExtension(p);
      && '.' !in r && '/' !in r
      && (r != [] ==> EndsWith(p, "." + r))
  {
    var name := LastComponent(p);
    var li := LastIndexOf(name, '.');
    if li.Some? && li.value != 0 {
      var i := li.value;
      var ext := name[i + 1..];
      assert PathExtension(p) == ext;
      assert '.' !in ext by {
        SuffixAfterLast(name, '.', i);
      }
      assert '/' !in ext by {
        AbsentFromTail(name, '/', i + 1);
      }
      assert EndsWith(name, "." + ext) by {
        TailFrom(name, i);
      }
      EndsWithTransitive(p, name, "." + ext);
    }
  }

  /** A path with a `/` is its directory, a `/`, and its last component. */
  lemma DirectoryAndComponentRebuildPath(p: Path)
    requires '/' in p
    ensures p == DirectoryOf(p) + "/" + LastComponent(p)
  {
    var i := LastIndexOf(p, '/').value;
    assert p == p[..i] + [p[i]] + p[i + 1..];
  }

  /** Appending a `/` and a plain file name to a directory is undone by
      `DirectoryOf` and `LastComponent`. */
  lemma {:induction false} JoinedPathParts(dir: Path, name: string)
    requires '/' !in name
    ensures DirectoryOf(dir + "/" + name) == dir
    ensures LastComponent(dir + "/" + name) == name
  {
    var p := dir + "/" + name;
    var r := LastIndexOf(p, '/');
    assert p[|dir|] == '/';
    assert r.value == |dir|;
    assert p[..|dir|] == dir;
    assert p[|dir| + 1..] == name;
  }

  /** The last component of `dir/stem.ext` is `stem.ext`. */
  lemma FileNameIsLastComponent(dir: Path, stem: string, ext: string)
    requires '/' !in stem && '/' !in ext
    ensures LastComponent(dir + "/" + (stem + "." + ext)) == stem + "." + ext
  {
    assert '/' !in stem + "." + ext;
    JoinedPathParts(dir, stem + "." + ext);
  }

  /** The last `.` of `stem.ext` is the one before `ext`. */
  lemma LastDotOfFileName(stem: string, ext: string)
    requires '.' !in ext
    ensures LastIndexOf(stem + "." + ext, '.') == Some(|stem|)
  {
    LastIndexOfSkips(stem + ".", ext, '.');
    var dotted := stem + ".";
    assert dotted[|dotted| - 1] == '.';
  }

  /** A file name `stem.ext` whose extension has no `.` has extension `ext`. */
  lemma {:induction false} ExtensionOfFileName(dir: Path, stem: string, ext: string)
    requires '/' !in stem && '/' !in ext && '.' !in ext
    requires |stem| > 0
    ensures PathExtension(dir + "/" + (stem + "." + ext)) == ext
  {
    FileNameIsLastComponent(dir, stem, ext);
    LastDotOfFileName(stem, ext);
    assert (stem + "." + ext)[|stem| + 1..] == ext;
  }
}

=== FILE: photo_library.dfy ===
/** The photo-library side of the system as the library sees it: decoded
    images, assembled live photos, and the changes requested of the library. */
module PhotoLibrary {
  import opened Wrappers
  import opened Paths
  import opened LKErrors

  /** A decoded still image (`UIImage`), known only by identity. */
  datatype Image = Image(handle: nat)

  /** An assembled live photo (`PHLivePhoto`), known only by identity. */
  datatype LivePhoto = LivePhoto(handle: nat)

  /** The resource types the library adds from files. */
  datatype ResourceKind = Photo | PairedVideo

  /** One change inside a `performChanges` block. */
  datatype LibraryChange =
    | AddResource(kind: ResourceKind, path: Path)
    | CreateAssetFromImage(image: Image)

  /** What a save does: the changes requested of the library (in order), and
      the values passed to the caller's completion handler (in order; `None`
      is a call with a nil error). */
  datatype SaveRun = SaveRun(changes: seq<LibraryChange>, reports: seq<Option<Error>>)
}

=== FILE: strings.dfy ===
/** Character search and line joining on Swift strings, modelled as `seq<char>`. */
module Strings {
  import opened Wrappers

  /** The position of the first `c` in `s`, if there is one. */
  function FirstIndexOf(s: string, c: char): (r: Option<nat>)
    ensures r.Some? ==> r.value < |s| && s[r.value] == c
    ensures r.Some? ==> forall k | 0 <= k < r.value :: s[k] != c
    ensures r.None? <==> c !in s
  {
    if |s| == 0 then None
    else if s[0] == c then Some(0)
    else
      assert s == [s[0]] + s[1..];
      match FirstIndexOf(s[1..], c)
      case None => None
      case Some(i) => Some(i + 1)
  }

  /** The position of the last `c` in `s`, if there is one. */
  function LastIndexOf(s: string, c: char): (r: Option<nat>)
    ensures r.Some? ==> r.value < |s| && s[r.value] == c
    ensures r.Some? ==> forall k | r.value < k < |s| :: s[k] != c
    ensures r.None? <==> c !in s
  {
    if |s| == 0 then None
    else if s[|s| - 1] == c then Some(|s| - 1)
    else
      assert s == s[..|s| - 1] + [s[|s| - 1]];
      LastIndexOf(s[..|s| - 1], c)
  }

  /** Appending text without a `c` does not move the last `c`. */
  lemma {:induction false} LastIndexOfSkips(a: string, b: string, c: char)
    requires c !in b
    ensures LastIndexOf(a + b, c) == LastIndexOf(a, c)
    decreases |b|
  {
    if |b| == 0 {
      assert a + b == a;
    } else {
      var s := a + b;
      var shorter := b[..|b| - 1];
      assert s[|s| - 1] == b[|b| - 1];
      assert s[..|s| - 1] == a + shorter;
      assert c !in shorter by {
        assert forall k | 0 <= k < |shorter| :: shorter[k] == b[k];
      }
      LastIndexOfSkips(a, shorter, c);
    }
  }

  /** Nothing after the last `c` of `s` is a `c`. */
  lemma SuffixAfterLast(s: string, c: char, i: nat)
    requires i < |s|
    requires forall k | i < k < |s| :: s[k] != c
    ensures c !in s[i + 1..]
  {
    var t := s[i + 1..];
    forall k | 0 <= k < |t| ensures t[k] != c {
      assert t[k] == s[i + 1 + k];
    }
  }

  /** `t` is a suffix of `s`. */
  predicate EndsWith(s: string, t: string)
  {
    |t| <= |s| && s[|s| - |t|..] == t
  }

  /** The tail of `s` from position `i` is `s[i]` followed by the rest, and a
      suffix of `s`. */
  lemma TailFrom(s: string, i: nat)
    requires i < |s|
    ensures s[i..] == [s[i]] + s[i + 1..]
    ensures EndsWith(s, s[i..])
  {
  }

  /** A suffix of a suffix is a suffix. */
  lemma EndsWithTransitive(a: string, b: string, c: string)
    requires EndsWith(a, b) && EndsWith(b, c)
    ensures EndsWith(a, c)
  {
    forall k | 0 <= k < |c| ensures a[|a| - |c| + k] == c[k] {
      assert a[|a| - |c| + k] == a[|a| - |b|..][|b| - |c| + k];
    }
  }

  /** Swift's `parts.joined(separator: "\n")`. */
  function JoinLines(parts: seq<string>): string
  {
    if |parts| == 0 then ""
    else if |parts| == 1 then parts[0]
    else parts[0] + "\n" + JoinLines(parts[1..])
  }

  /** The pieces of `s` between line breaks, in order; never empty. */
  function SplitLines(s: string): (r: seq<string>)
    ensures |r| >= 1
    decreases |s|
  {
    match FirstIndexOf(s, '\n')
    case None => [s]
    case Some(i) => [s[..i]] + SplitLines(s[i + 1..])
  }

  /** Every piece `SplitLines` returns is free of line breaks. */
  lemma {:induction false} SplitLinesHaveNoBreaks(s: string)
    ensures forall i | 0 <= i < |SplitLines(s)| :: '\n' !in SplitLines(s)[i]
    decreases |s|
  {
    match FirstIndexOf(s, '\n')
    case None =>
    case Some(i) =>
      SplitLinesHaveNoBreaks(s[i + 1..]);
      var head := s[..i];
      assert '\n' !in head by {
        forall k | 0 <= k < |head| ensures head[k] != '\n' {
          assert head[k] == s[k];
        }
      }
  }

  /** A break-free line followed by a break splits off as the first piece. */
  lemma SplitAtFirstBreak(line: string, rest: string)
    requires '\n' !in line
    ensures SplitLines(line + "\n" + rest) == [line] + SplitLines(rest)
  {
    var s := line + "\n" + rest;
    assert FirstIndexOf(s, '\n') == Some(|line|) by {
      assert s[|line|] == '\n';
      assert forall k | 0 <= k < |line| :: s[k] == line[k];
    }
    assert s[..|line|] == line;
    assert s[|line| + 1..] == rest;
  }

  /** Splitting undoes joining, for a non-empty list of break-free lines. */
  lemma {:induction false} SplitJoinRoundTrip(parts: seq<string>)
    requires |parts| >= 1
    requires forall i | 0 <= i < |parts| :: '\n' !in parts[i]
    ensures SplitLines(JoinLines(parts)) == parts
  {
    if |parts| > 1 {
      SplitAtFirstBreak(parts[0], JoinLines(parts[1..]));
      SplitJoinRoundTrip(parts[1..]);
      assert parts == [parts[0]] + parts[1..];
    }
  }

  /** Joining a line in front of a non-empty list puts one break between them. */
  lemma JoinLinesCons(line: string, rest: seq<string>)
    requires |rest| >= 1
    ensures JoinLines([line] + rest) == line + "\n" + JoinLines(rest)
  {
    assert ([line] + rest)[1..] == rest;
  }

  /** Joining undoes splitting, for every string. */
  lemma {:induction false} JoinSplitRoundTrip(s: string)
    ensures JoinLines(SplitLines(s)) == s
    decreases |s|
  {
    var f := FirstIndexOf(s, '\n');
    if f.Some? {
      var i := f.value;
      var t := s[i + 1..];
      JoinSplitRoundTrip(t);
      JoinLinesCons(s[..i], SplitLines(t));
      assert s == s[..i] + "\n" + t;
    }
  }
}

=== FILE: wrappers.dfy ===
/** The shapes of a Swift call's result that the model shares: an optional
    value, a value or the error thrown, and success or the error thrown. */
module Wrappers {

  /** A Swift optional. */
  datatype Option<+T> = None | Some(value: T)

  /** The outcome of a Swift `throws` function: either its value or the error thrown. */
  datatype Result<+R, +E> = Success(value: R) | Failure(error: E)

  /** The outcome of a Swift `throws` function that returns nothing. */
  datatype Outcome<+E> = Pass | Fail(error: E)
}
